=== FILE: README.md ===
# Link-tree page: a Dafny model

This project models the logic of a small Next.js "link tree" site. Each client has a profile page listing their links. The page also has:
- a contact block;
- an optional QR code;
- an optional newsletter form.

Its look comes from a theme: a fixed light or dark table, or a custom theme from which inline styles are synthesised. The model covers the following modules.

- **`JsRuntime`** (`js_runtime.dfy`): the JavaScript built-ins the code relies on:
  - optional values;
  - truthiness of optional strings and booleans;
  - `||` on strings;
  - `split` on a character;
  - `join`;
  - splitting on a string separator.

  Each is given with the laws the rest of the model needs, for example that `join` undoes `split`.
- **`Config`** (`client_config.dfy`): the configuration records, the static table of the two clients, and the lookup by client id.
- **`Theme`** (`theme_styles.dfy`): the style resolver:
  - the light and dark tables;
  - the custom bundle with its gradient, shadow and border rules.

  A CSS style object is a map from a CSS property (one of the fixed set the code sets) to an optional value. `None` is a property that is present with the value `undefined`.
- **`LinkItem`** (`link_item.dfy`):
  - the icon name taken from an icon path;
  - the slot class and style chosen by the pinned flag;
  - the icon colour chosen by the theme.
- **`Contact`** (`contact_info.dfy`):
  - the `tel:`, `mailto:` and map links;
  - the contact icon colour;
  - the count of contact methods;
  - the cards the block renders.
- **`LinkTree`** (`link_tree.dfy`):
  - the split of links into pinned and regular ones, and their rendering order;
  - the contact-section test;
  - the container style;
  - the profile URL.

  The page's own state is a class: the QR toggle, the profile URL and the mounted flag, updated by the click handler and the mount effect.
- **`Newsletter`** (`newsletter_signup.dfy`): the signup form as a class with `email`, `status` and `message` fields. The submit handler is split at its `await` into the part before it and the part after it. An event-delivery method models what the rendered form lets through.
- **`SvgIcon`** (`svg_icon.dfy`): the colourisation of a fetched SVG text. It is two global regular-expression replacements, first of `fill="…"` values and then of `stroke="…"` values. The second runs on the output of the first.

Three kinds of input become function parameters:
- number-to-text conversion of coordinates (`numberText`);
- `encodeURIComponent` (`encode`);
- the page origin.

The regular-expression class `\s` is modelled as the ECMAScript white-space and line-terminator code points.

Details of the code that the model keeps as they are:
- In the custom bundle, the container, link and pinned-link class strings are the empty string.
- A gradient with no stops is accepted, giving `linear-gradient(to bottom right, )`.
- A `boxShadow` or `borderColor` without a value is a property present with the value `undefined`, not an omitted property.
- The contact-card border falls back to translucent white whenever the configured border is falsy, which includes the empty string, not only when it is absent.

## Model

| member | source | states |
|---|---|---|
| JsRuntime.Truthy | app/components/ContactInfo.tsx:41 | an optional string as a condition, truthy when present and non-empty (a predicate, no ensures): used by JsRuntime.OrElse, whose contract states both of its outcomes, and by Contact.ContactMethodCount |
| JsRuntime.TruthyBool | app/components/LinkTree.tsx:121 | an optional boolean as a condition, truthy only when present and true (a predicate, no ensures): stated through LinkTree.ProfilePage.Mount and LinkTree.FilterPinned |
| JsRuntime.Join | app/utils/themeStyles.ts:67-69 | `join` of the parts with a separator (no ensures of its own): JsRuntime.JoinSplit and JsRuntime.SplitOnJoin state that splitting undoes it |
| JsRuntime.OrElse | app/components/LinkItem.tsx:28 | `s \|\| fallback` is the string when it is truthy (present and non-empty), the fallback otherwise |
| JsRuntime.Split | app/components/LinkItem.tsx:28-30 | `split` on a character gives at least one part, and no part holds the separator |
| JsRuntime.JoinSplit | app/components/LinkItem.tsx:28-30 | joining the parts of a split with the separator gives the string back |
| JsRuntime.SplitFirst | app/components/LinkItem.tsx:30 | the first part of a split is the text before the first separator |
| JsRuntime.SplitLast | app/components/LinkItem.tsx:28 | the last part of a split (what `pop` returns) is the text after the last separator |
| JsRuntime.SplitNoSep | app/components/LinkItem.tsx:28-30 | a string without the separator splits into itself alone |
| JsRuntime.SplitOnJoin | app/utils/themeStyles.ts:67-69 | splitting a join on a non-empty separator that never overlaps itself gives the parts back, in order, when no part contains the separator |
| Config.ThemeName.Text | app/lib/getClientConfig.ts:42 | a configured theme is one of "light", "dark", "custom" |
| Config.ClientConfig.ThemeText | app/lib/getClientConfig.ts:42 | the theme string handed to the resolver is present exactly when a theme is configured, and is one of the three names |
| Config.Table | app/lib/getClientConfig.ts:64-146 | the table of the two clients (a constant, no ensures): stated by Config.TableKeysAreClientIds and Config.TableFirstLinkOnlyPinned |
| Config.Link.Pinned | app/components/LinkTree.tsx:80-81 | `link.isPinned` as a condition (a predicate, no ensures): LinkTree.FilterPinned and LinkTree.PinnedMembership state that it decides the section |
| Config.TableKeysAreClientIds | app/lib/getClientConfig.ts:64-146 | the table has the keys "aggi" and "ginger", and every entry's client id is its key |
| Config.TableFirstLinkOnlyPinned | app/lib/getClientConfig.ts:99-139 | in every entry exactly one link is pinned, and it is the first |
| Config.LookupAsWritten | app/lib/getClientConfig.ts:153 | the indexed read plus `\|\| null` as written: own keys give their entry, inherited `Object.prototype` names give a truthy member, only other ids give null |
| Config.InheritedNameIsNotNull | app/lib/getClientConfig.ts:153 | "toString" is no client, yet the lookup as written does not return null for it |
| Config.GetClientConfig | app/lib/getClientConfig.ts:148-154 | a configuration is returned exactly for a table key, and it is that key's entry with that client id; every other id gives null |
| Config.LookupAgreesOffPrototype | app/lib/getClientConfig.ts:153 | apart from inherited names, the lookup as written and the corrected one agree |
| Config.LookupIsCaseSensitive | app/lib/getClientConfig.ts:153 | keys match exactly: "aggi" finds its entry, "Aggi" finds nothing |
| Theme.LightTheme | app/utils/themeStyles.ts:33-45 | the light class table (a constant, no ensures): Theme.FallbackIsLight states when it is chosen, Theme.CustomBundleShape that it has no inline styles |
| Theme.DarkTheme | app/utils/themeStyles.ts:48-60 | the dark class table (a constant, no ensures): Theme.DarkIgnoresCustomTheme states when it is chosen, Theme.CustomBundleShape that it has no inline styles |
| Theme.GradientCss | app/utils/themeStyles.ts:64-69 | the gradient string (no ensures of its own): Theme.GradientRoundTrip and Theme.RgbaStopsReadBack state that it reads back to its stops, Theme.GradientExamples gives its exact text |
| Theme.BackgroundCss | app/utils/themeStyles.ts:64-69 | the background as CSS (no ensures of its own): stated by Theme.CustomBackground |
| Theme.CustomContainerStyle | app/utils/themeStyles.ts:83-86 | the custom container style (no ensures of its own): stated by Theme.CustomContainer |
| Theme.CustomLinkStyle | app/utils/themeStyles.ts:87-94 | the custom link style (no ensures of its own): its shadow is stated by Theme.CustomShadows, its border by Theme.CustomBorders, its lack of a border width by Theme.PinnedIsLinkWithBorderWidth |
| Theme.CustomPinnedLinkStyle | app/utils/themeStyles.ts:95-103 | the custom pinned-link style (no ensures of its own): stated by Theme.PinnedIsLinkWithBorderWidth and Theme.CustomShadows |
| Theme.CustomContactItemStyle | app/utils/themeStyles.ts:104-110 | the custom contact-item style (no ensures of its own): its shadow is stated by Theme.CustomShadows, its lack of a border colour by Theme.CustomBorders |
| Theme.CustomContactCardStyle | app/utils/themeStyles.ts:111-118 | the custom contact-card style (no ensures of its own): its shadow is stated by Theme.CustomShadows, its border fallback by Theme.CustomBorders |
| Theme.Shadow | app/utils/themeStyles.ts:91-93 | a shadow value is defined exactly when the shadow colour is truthy |
| Theme.GetThemeStyles | app/utils/themeStyles.ts:31-127 | every bundle has the three contact class slots; inline styles exist exactly for theme "custom" with a custom theme, and then the bundle is the custom bundle of that theme |
| Theme.CustomBundle | app/utils/themeStyles.ts:63-124 | the bundle built from a custom theme (no ensures of its own): its slot styles are stated by Theme.CustomContainer, Theme.CustomShadows, Theme.CustomBorders, Theme.PinnedIsLinkWithBorderWidth and Theme.CustomBundleShape |
| Theme.DarkIgnoresCustomTheme | app/utils/themeStyles.ts:126 | "dark" gives the dark table whatever custom theme is passed |
| Theme.FallbackIsLight | app/utils/themeStyles.ts:62-127 | absent, unknown and "light" themes, and "custom" without a custom theme, give the light table |
| Theme.ThemeNameIsCaseSensitive | app/utils/themeStyles.ts:63 | "Dark" and "CUSTOM" are not recognised and give the light table |
| Theme.GingerResolvesToLight | app/lib/getClientConfig.ts:110 | client "ginger" asks for "custom" without a custom theme and is styled with the light table |
| Theme.GradientRoundTrip | app/utils/themeStyles.ts:64-69 | a gradient string reads back to the same stops in the same order (one stop or more, none containing ", ") |
| Theme.SeparatorNonOverlapping | app/utils/themeStyles.ts:67-69 | the separator ", " has no proper prefix that is also its suffix, so its occurrences never overlap |
| Theme.NoSpaceNoSeparator | app/utils/themeStyles.ts:67-69 | a stop without a space does not contain ", " |
| Theme.RgbaStopsReadBack | app/utils/themeStyles.ts:64-69 | stops without spaces, commas allowed (such as `rgba(0,0,0,0.5)`), read back whole and in order |
| Theme.CustomContainer | app/utils/themeStyles.ts:83-86 | the custom container style sets exactly the background, as CSS, and the text colour |
| Theme.CustomBackground | app/utils/themeStyles.ts:64-69 | a string background is copied verbatim; a gradient of one stop or more, none containing ", ", reads back to its stops in order |
| Theme.GradientExamples | app/utils/themeStyles.ts:67-69 | two stops give `linear-gradient(to bottom right, #fff, #000)`; no stops give `linear-gradient(to bottom right, )`, which reads back as one empty stop |
| Theme.CustomShadows | app/utils/themeStyles.ts:91-117 | links and pinned links use the 4px/6px offset, contact item and card use the 2px/4px one; the offset followed by the colour is exact |
| Theme.PinnedIsLinkWithBorderWidth | app/utils/themeStyles.ts:87-103 | the pinned-link style is the link style plus `borderWidth: "2px"`, which the link style lacks |
| Theme.CustomBorders | app/utils/themeStyles.ts:90-114 | the link border is the configured one, possibly undefined; the card border falls back to translucent white when it is falsy; the contact item has none |
| Theme.CustomBundleShape | app/utils/themeStyles.ts:33-123 | only the custom bundle has inline styles: its icon colour is the link text, its container, link and pinned-link classes are empty, and it has no styles for the QR button, the newsletter slots or the contact section |
| Theme.CustomScenario | app/utils/themeStyles.ts:82-103 | a plain-colour custom theme yields its colour as the background, its text colour, and a 2px pinned border |
| LinkItem.GetIconName | app/components/LinkItem.tsx:25-31 | `getIconName` by `split`, `pop`, `\|\| ""` and `split` (no ensures of its own): LinkItem.GetIconNameByPosition equates it with LinkItem.IconNameByPosition |
| LinkItem.LastSegment | app/components/LinkItem.tsx:28 | the last path segment has no slash, ends the path, and is either the whole path or preceded by a slash |
| LinkItem.IconNameByPosition | app/components/LinkItem.tsx:28-30 | the positional icon name holds neither slash nor dot, begins the last segment, and is either the whole segment or followed in it by a dot |
| LinkItem.GetIconNameByPosition | app/components/LinkItem.tsx:25-31 | `getIconName` is the last segment's text before its first dot |
| LinkItem.IconNameIsStemOfLastSegment | app/components/LinkItem.tsx:28-30 | the icon name has no slash or dot and is a prefix of the last segment |
| LinkItem.BareNameUnchanged | app/components/LinkItem.tsx:28-30 | a name without slash or dot comes back unchanged |
| LinkItem.IconNameExamples | app/components/LinkItem.tsx:26-30 | the empty path gives "" and "facebook" gives "facebook" |
| LinkItem.RenderLink | app/components/LinkItem.tsx:17-85 | the rendered link item (no ensures of its own): its slot is stated by LinkItem.SlotFollowsPinnedFlag; its image, its icon with the name `getIconName` gives, and its anchor by LinkItem.IconRule |
| LinkItem.SlotFollowsPinnedFlag | app/components/LinkItem.tsx:33-39 | a pinned item takes the pinned slot's class and inline style, others the link slot's; an absent flag is not pinned |
| LinkItem.IconRule | app/components/LinkItem.tsx:54-84 | the image is the link's own, shown exactly when truthy; an icon is shown exactly when there is no image and there is an icon, named by `getIconName` of the icon path, white exactly under "dark"; the anchor has the link's URL and title |
| LinkItem.CustomPinnedItemHasBorderWidth | app/components/LinkItem.tsx:37-39 | under a custom theme a pinned item's style is a regular item's plus the 2px border width |
| Contact.IsJsWhitespace | app/components/ContactInfo.tsx:15 | the code points `\s` matches (a predicate, no ensures): Contact.StripWhitespace and Contact.StripAllWhitespace state that stripping removes exactly these |
| Contact.StripWhitespace | app/components/ContactInfo.tsx:15 | removing white-space runs leaves no white space and never lengthens the text |
| Contact.StripConcat | app/components/ContactInfo.tsx:15 | stripping works piece by piece, so kept characters keep their order |
| Contact.StripAllWhitespace | app/components/ContactInfo.tsx:15 | a string of white space only strips to the empty string, so with Contact.StripConcat and Contact.StripKeepsClean every white-space character is deleted and every other kept |
| Contact.StripKeepsClean | app/components/ContactInfo.tsx:15 | text without white space is kept whole |
| Contact.PhoneUrl | app/components/ContactInfo.tsx:14-16 | `getPhoneUrl` (no ensures of its own): stated by Contact.PhoneUrlShape |
| Contact.PhoneUrlShape | app/components/ContactInfo.tsx:14-16 | the phone link is `tel:` and then the number without white space, in order; a clean number is kept whole |
| Contact.EmailUrl | app/components/ContactInfo.tsx:18-20 | the email link is `mailto:` followed by the address exactly |
| Contact.MapUrl | app/components/ContactInfo.tsx:22-27 | `getMapUrl` (no ensures of its own): stated by Contact.MapUrlChoice |
| Contact.MapUrlChoice | app/components/ContactInfo.tsx:22-27 | the link starts with the maps prefix; with coordinates the query is latitude, a comma and longitude as text, and the address plays no part; without them the query is the encoded address |
| Contact.IconColor | app/components/ContactInfo.tsx:29-31 | the contact icon colour chosen by theme (no ensures of its own): stated by Contact.IconColorForResolvedTheme |
| Contact.IconColorForResolvedTheme | app/components/ContactInfo.tsx:29-31 | contact icons are translucent white under "dark", the link text colour under "custom" with a custom theme, undefined under "custom" without one, and the current colour otherwise |
| Contact.GingerContactIconUndefined | app/components/ContactInfo.tsx:29-31 | client "ginger" gets an undefined contact icon colour |
| Contact.ContactMethodCount | app/components/ContactInfo.tsx:34 | the count is at most 2, 0 exactly when neither phone nor email is truthy, 2 exactly when both are |
| Contact.CardStyle | app/components/ContactInfo.tsx:50 | `themeStyles.customStyles?.contactCard` (no ensures of its own): Contact.ContactCards states that every card carries it |
| Contact.RenderContact | app/components/ContactInfo.tsx:11-124 | the `ContactInfo` component (no ensures of its own): Contact.ContactCards states the one-card-per-method row and the location slot holding the location card, Contact.ContactLinks that this card is the map link and every other card links where its kind says |
| Contact.ContactCards | app/components/ContactInfo.tsx:36-124 | the phone/email row renders exactly when the count is positive, with one card per method, phone first, email last, no two of a kind and no location card; the location slot holds a location card exactly when there is a location; every card uses the contact-card class, style and shared icon colour |
| Contact.ContactLinks | app/components/ContactInfo.tsx:41-97 | for any contact: a phone card exists exactly when the phone is truthy and links to `tel:` and the stripped number; an email card exists exactly when the email is truthy and links to `mailto:` and the address; the location card, which the location slot holds, links to the map link; each card shows what it links |
| LinkTree.PinnedLinks | app/components/LinkTree.tsx:80 | the pinned filter (no ensures of its own): stated by LinkTree.PartitionIsPermutation and LinkTree.PinnedMembership |
| LinkTree.RegularLinks | app/components/LinkTree.tsx:81 | the regular filter (no ensures of its own): stated by LinkTree.PartitionIsPermutation and LinkTree.PinnedMembership |
| LinkTree.FilterPinned | app/components/LinkTree.tsx:80-81 | a filter keeps only links of the asked pinned state and never grows the list |
| LinkTree.FilterConcat | app/components/LinkTree.tsx:80-81 | filtering distributes over concatenation, so kept links stay in original order |
| LinkTree.PartitionIsPermutation | app/components/LinkTree.tsx:80-81 | pinned and regular links together are the links, each exactly once (lengths and multisets add up) |
| LinkTree.PinnedMembership | app/components/LinkTree.tsx:80-81 | a link is among the pinned ones exactly when it is listed and pinned, among the regular ones exactly when listed and not pinned |
| LinkTree.PlaceAll | app/components/LinkTree.tsx:155-178 | each link of a section is rendered with that section's pinned flag |
| LinkTree.RenderedLinks | app/components/LinkTree.tsx:152-180 | the links in rendering order (no ensures of its own): stated by LinkTree.PinnedFirst |
| LinkTree.PinnedFirst | app/components/LinkTree.tsx:152-180 | every pinned item is rendered before every regular one, each with its own link's flag; the items are the pinned links then the regular ones, position by position, which together are the links, each as often as listed |
| LinkTree.PageLinkViews | app/components/LinkTree.tsx:152-180 | the rendered link items in page order (no ensures of its own): stated by LinkTree.PageLinkSlots |
| LinkTree.PageLinkSlots | app/components/LinkTree.tsx:152-180 | the page's items are its pinned links in the pinned slot, then its regular links in the link slot, each linking to its own URL in original order |
| LinkTree.ContactSectionShown | app/components/LinkTree.tsx:139-142 | the section test (no ensures of its own): stated by LinkTree.ContactSectionHasCards and LinkTree.NoContactNoSection |
| LinkTree.ContactSectionHasCards | app/components/LinkTree.tsx:139-150 | the contact section is shown exactly when the block renders at least one card |
| LinkTree.NoContactNoSection | app/components/LinkTree.tsx:139-142 | without a contact block there is no section |
| LinkTree.BackgroundStyle | app/components/LinkTree.tsx:71-77 | without a truthy image the background style is empty |
| LinkTree.ContainerStyle | app/components/LinkTree.tsx:86-89 | the container's spread style (no ensures of its own): stated by LinkTree.ContainerStyleLayers and LinkTree.ContainerStyleImage |
| LinkTree.ContainerStyleLayers | app/components/LinkTree.tsx:86-89 | the custom container style wins on every key it sets; background properties survive elsewhere |
| LinkTree.ContainerStyleImage | app/components/LinkTree.tsx:71-89 | with an image the URL is `url(`, the image and `)`, with cover size and repeat; with neither an image nor custom styles the style is empty |
| LinkTree.ProfileUrl | app/components/LinkTree.tsx:56 | the profile URL is the origin, a slash, and the client id |
| LinkTree.ProfilePage.constructor | app/components/LinkTree.tsx:49-51 | a new page is unmounted with the QR code hidden, and shows no share buttons, QR button or newsletter |
| LinkTree.ProfilePage.Mount | app/components/LinkTree.tsx:54-57 | mounting sets the flag and the profile URL; the share buttons, the QR button and the newsletter then follow the configuration, and the code shows exactly when its button does and the toggle is on |
| LinkTree.ProfilePage.ToggleQrCode | app/components/LinkTree.tsx:124 | a click flips the QR flag and nothing else; the button stays, and the code shows afterwards exactly when the button is there and the code was hidden |
| LinkTree.ProfilePage.QrButtonLabel | app/components/LinkTree.tsx:127 | the label is "Hide QR Code" exactly when the code is toggled on, "Show QR Code" exactly when it is not |
| LinkTree.ProfilePage.ShareButtonsShown | app/components/LinkTree.tsx:114 | the share-button test (a predicate, no ensures): stated by LinkTree.ProfilePage.constructor and LinkTree.ProfilePage.Mount |
| LinkTree.ProfilePage.QrButtonShown | app/components/LinkTree.tsx:121 | the QR-button test (a predicate, no ensures): stated by LinkTree.ProfilePage.Mount, LinkTree.ProfilePage.ToggleQrCode and LinkTree.OpenProfile |
| LinkTree.ProfilePage.QrCodeShown | app/components/LinkTree.tsx:134 | the QR-code test (a predicate, no ensures): stated by LinkTree.ProfilePage.Mount, LinkTree.ProfilePage.ToggleQrCode, LinkTree.ToggleTwice and LinkTree.OpenProfile |
| LinkTree.ProfilePage.NewsletterShown | app/components/LinkTree.tsx:183 | the newsletter test (a predicate, no ensures): stated by LinkTree.ProfilePage.constructor and LinkTree.ProfilePage.Mount |
| LinkTree.ToggleTwice | app/components/LinkTree.tsx:124-136 | two clicks restore the flag, the label and whether the code is shown |
| LinkTree.OpenProfile | app/components/LinkTree.tsx:49-57 | a page exists exactly for table clients; once mounted its URL ends in the client id, the QR button is offered and the code is hidden |
| Newsletter.SignupForm.constructor | app/components/NewsletterSignup.tsx:19-21 | the form starts idle with empty email and message |
| Newsletter.SignupForm.SetStatus | app/components/NewsletterSignup.tsx:20 | a status change is logged and touches nothing else |
| Newsletter.SignupForm.ChangeEmail | app/components/NewsletterSignup.tsx:72 | typing sets the email and nothing else |
| Newsletter.SignupForm.BeginSubmit | app/components/NewsletterSignup.tsx:23-28 | an empty email changes nothing; otherwise the form goes to loading |
| Newsletter.SignupForm.Settle | app/components/NewsletterSignup.tsx:36-52 | success sets the success message and clears the email; a failure sets the error message and keeps the email |
| Newsletter.SignupForm.Submit | app/components/NewsletterSignup.tsx:23-55 | a non-empty submission passes through loading and ends in success or error with its message; an empty one changes nothing |
| Newsletter.SignupForm.Handle | app/components/NewsletterSignup.tsx:57-89 | success is terminal; a second submit while loading is ignored; typing sets only the email; a submit from idle or error goes to loading and keeps the email and message; a submission settles only while loading |
| Newsletter.SignupForm.ButtonLabel | app/components/NewsletterSignup.tsx:84 | the button reads "Subscribing..." while loading and the configured text otherwise |
| Newsletter.SignupForm.FormRendered | app/components/NewsletterSignup.tsx:57-63 | the form is replaced by the message exactly on success (a predicate, no ensures) |
| Newsletter.SignupForm.ButtonDisabled | app/components/NewsletterSignup.tsx:80 | the button is disabled exactly while loading (a predicate, no ensures) |
| Newsletter.SignupForm.ErrorShown | app/components/NewsletterSignup.tsx:87-89 | the error paragraph shows exactly on the form in the error state (a predicate, no ensures) |
| Newsletter.SubscribeOnce | app/components/NewsletterSignup.tsx:23-63 | typing an address and submitting goes idle, loading, success, and leaves only the success message |
| SvgIcon.MatchValue | app/components/SvgIcon.tsx:24 | a matched value holds no quote |
| SvgIcon.MatchRest | app/components/SvgIcon.tsx:24 | the search resumes strictly further on after a match |
| SvgIcon.ReplaceAttribute | app/components/SvgIcon.tsx:24 | one global replacement of `name="[^"]*"` (no ensures of its own): stated by SvgIcon.ReplaceKeepsStructure, SvgIcon.ReplaceFirstMatch and SvgIcon.NoAttributeUnchanged |
| SvgIcon.Colorize | app/components/SvgIcon.tsx:23-25 | the fill pass, then the stroke pass on its output (no ensures of its own): stated by SvgIcon.PlainSvgUnchanged and SvgIcon.ColorizeFillAndStroke |
| SvgIcon.ColorizedSvg | app/components/SvgIcon.tsx:13-25 | the colourisation with the colour defaulting to "currentColor" (no ensures of its own): stated by SvgIcon.ColorizeFillAndStroke |
| SvgIcon.Recolor | app/components/SvgIcon.tsx:24-25 | recolouring keeps every copied character in place and gives every match the colour |
| SvgIcon.SpellPieces | app/components/SvgIcon.tsx:24 | the scan into copied characters and matches loses nothing: spelled out, it is the text |
| SvgIcon.ReplaceIsRecolor | app/components/SvgIcon.tsx:24 | the replacement is the scan with every match recoloured, spelled out |
| SvgIcon.ReplaceKeepsStructure | app/components/SvgIcon.tsx:24 | the replacement keeps all other text in order and replaces each leftmost, non-overlapping match's value by the colour |
| SvgIcon.MatchValuesHaveNoQuote | app/components/SvgIcon.tsx:24 | every match ends at the first quote after its opener |
| SvgIcon.NoOpenerNoMatch | app/components/SvgIcon.tsx:24 | text without the opener has no match |
| SvgIcon.NoAttributeUnchanged | app/components/SvgIcon.tsx:24 | text without `name="` is returned unchanged |
| SvgIcon.PlainSvgUnchanged | app/components/SvgIcon.tsx:23-25 | text with neither `fill="` nor `stroke="` comes out of both passes unchanged |
| SvgIcon.ReplaceAtOpener | app/components/SvgIcon.tsx:24 | a match at the head gets the colour and the search resumes after its closing quote |
| SvgIcon.ReplaceFirstMatch | app/components/SvgIcon.tsx:24 | text before the first match is copied, the match gets the colour, the rest is replaced in turn |
| SvgIcon.ReplaceOnlyMatch | app/components/SvgIcon.tsx:24 | with one attribute of the name and no other opener of that name anywhere in the text, only its value changes |
| SvgIcon.PassOverFirst | app/components/SvgIcon.tsx:24 | the pass over the first of two attributes recolours it and keeps the rest, the second attribute included |
| SvgIcon.PassOverSecond | app/components/SvgIcon.tsx:25 | the pass over the second of two attributes recolours it and keeps the rest, the already recoloured first included |
| SvgIcon.ColorizeFillAndStroke | app/components/SvgIcon.tsx:13-25 | a text with one `fill="…"` and one `stroke="…"` and no other opener of either gets the colour in both, the stroke pass reading the fill pass's output; the colour defaults to "currentColor" |

## Left out

- Network and timing: the simulated delays before the lookup and in the newsletter handler, `console` logging (including click tracking) and the endpoint named in the log line, none of which affects state.
- The `fetch` of the SVG: the fetched text is the input of the colourisation. The failure path, where the content stays the empty string, is not modelled.
- `window.location.origin`, `encodeURIComponent` and the number-to-text conversion of coordinates are parameters, not definitions.
- React and Next.js machinery is not modelled: scheduling, effect re-runs, `dynamic`, `Image`, `Link` and `notFound`. Layout and Tailwind class semantics are out too: class strings are constants, and only which one is selected is modelled.
- The profile route file `app/[clientId]/page.tsx` (its not-found branch and its backdrop) is not part of this model. The lookup it calls is modelled.
- The QR code component, the animations, the share-button and icon components, and the subscribe route are not part of this model.
- The `fontFamily` field of a custom theme is carried but never read, as in the code.
- Newsletter.SignupForm.Settle: the `failed` flag stands for an exception inside the `try` block. No statement there currently throws, so only the success path is reachable in the code as it stands.
- Newsletter.SignupForm.Handle: the browser's own `required` and `type="email"` checks that run before submission are not modelled.
- SvgIcon.ReplaceAttribute: `$` patterns in the colour, which `String.replace` would expand, are not modelled. The colour is inserted literally.
- SvgIcon.ColorizeFillAndStroke: states the two-pass result only for a text with exactly one `fill="` and one `stroke="` opener, and for a colour that does not open a `stroke="` in the fill pass's output. Such a colour would be rewritten again by the second pass. Texts with several attributes of a name are covered one match at a time by SvgIcon.ReplaceKeepsStructure.
- Theme.CustomBackground: the gradient case is stated only for one stop or more, none containing ", ". A stop containing ", " is split apart on reading back, and the empty list reads back as one empty stop (Theme.GradientExamples).
- Theme.GradientRoundTrip: stated only for one stop or more, none containing ", ". Commas alone are allowed (Theme.RgbaStopsReadBack). A stop containing ", " is split apart on reading back, and the empty list reads back as one empty stop.

## Findings

| source | as written | input that shows it | evidently intended | confidence | as-written member | corrected member |
|---|---|---|---|---|---|---|
| app/lib/getClientConfig.ts:153 | `clientConfigs[clientId] \|\| null` reads a plain object literal, so inherited `Object.prototype` members are found too, and they are truthy | client id "toString" (also "constructor", "valueOf", "__proto__", …): the lookup returns a function, not null, so the route does not call `notFound`; the function becomes `config`, its `links` is undefined, and `links.filter` in `LinkTree` throws, so the route fails with an error instead of a 404 | only own keys of the table are clients; every other id gives null | medium, not executed | Config.LookupAsWritten (shown by Config.InheritedNameIsNotNull) | Config.GetClientConfig |

=== FILE: client_config.dfy ===
/**
 * The client configuration records, the static table of clients and the
 * lookup by client id that the profile route performs.
 */
module Config {
  import opened JsRuntime

  /** One entry of a profile's link list. */
  datatype Link = Link(
    title: string,
    url: string,
    icon: Option<string>,
    image: Option<string>,
    isPinned: Option<bool>,
    analyticsId: Option<string>)
  {
    /** `link.isPinned` taken as a JavaScript condition. */
    predicate Pinned() {
      TruthyBool(isPinned)
    }
  }

  datatype SharePlatform = Twitter | Facebook | LinkedIn | EmailShare | WhatsApp

  datatype SocialShareButton = SocialShareButton(platform: SharePlatform, enabled: bool)

  /** A custom background: one colour string, or an object holding gradient stops. */
  datatype BackgroundSetting = Solid(color: string) | Gradient(stops: seq<string>)

  datatype CustomTheme = CustomTheme(
    background: BackgroundSetting,
    text: string,
    linkBackground: string,
    linkText: string,
    linkBorder: Option<string>,
    linkShadow: Option<string>,
    fontFamily: Option<string>)

  /** Latitude and longitude, as the numbers of the configuration. */
  datatype Coordinates = Coordinates(lat: real, lng: real)

  datatype Location = Location(address: string, coordinates: Option<Coordinates>)

  datatype ContactInfo = ContactInfo(
    phone: Option<string>,
    email: Option<string>,
    location: Option<Location>)

  /** The three theme names a configuration may carry. */
  datatype ThemeName = LightName | DarkName | CustomName {
    function Text(): (s: string)
      ensures s in {"light", "dark", "custom"}
    {
      match this
      case LightName => "light"
      case DarkName => "dark"
      case CustomName => "custom"
    }
  }

  datatype NewsletterSettings = NewsletterSettings(
    enabled: bool,
    title: string,
    buttonText: string,
    placeholder: string,
    endpoint: string)

  datatype AnalyticsProvider = Google | CustomProvider

  datatype Analytics = Analytics(
    enabled: bool,
    provider: Option<AnalyticsProvider>,
    trackingId: Option<string>)

  datatype ClientConfig = ClientConfig(
    clientId: string,
    name: string,
    bio: Option<string>,
    avatar: Option<string>,
    theme: Option<ThemeName>,
    customTheme: Option<CustomTheme>,
    enableQrCode: Option<bool>,
    socialShareButtons: Option<seq<SocialShareButton>>,
    newsletterSignup: Option<NewsletterSettings>,
    backgroundImage: Option<string>,
    links: seq<Link>,
    contact: Option<ContactInfo>,
    analytics: Option<Analytics>)
  {
    /** The theme as the string the renderer hands to the style resolver. */
    function ThemeText(): (t: Option<string>)
      ensures t.Some? <==> theme.Some?
      ensures t.Some? ==> t.value in {"light", "dark", "custom"}
    {
      match theme
      case None => None
      case Some(n) => Some(n.Text())
    }
  }

  const Aggi := ClientConfig(
    clientId := "aggi",
    name := "Chatzopoulou Aggeliki",
    bio := Some("Αγροτοικός Οίκος Χατζόπουλος"),
    avatar := Some("/images/aggi.png"),
    theme := Some(LightName),
    customTheme := None,
    enableQrCode := Some(true),
    socialShareButtons := None,
    newsletterSignup := None,
    backgroundImage := None,
    links := [
      Link("Website", "http://grainsbio.com/", None, Some("/button-icons/chatzopoulos-logo.png"), Some(true), None),
      Link("Facebook", "https://www.facebook.com/la.v.ebella.5", Some("facebook"), None, None, None),
      Link("Instagram", "https://www.instagram.com/aggeliki_chatzopoulou/", Some("instagram"), None, None, None)
    ],
    contact := Some(ContactInfo(
      Some("+30 6980708900"),
      Some("chatz31agg@gmail.com"),
      Some(Location("Kilkis, Pedino 611 00", Some(Coordinates(40.896323, 22.863423)))))),
    analytics := Some(Analytics(true, Some(CustomProvider), None)))

  const Ginger := ClientConfig(
    clientId := "ginger",
    name := "Chatzopoulou Eirini",
    bio := Some("Αγροτοικός Οίκος Χατζόπουλος"),
    avatar := Some("/images/ginger.png"),
    theme := Some(CustomName),
    customTheme := None,
    enableQrCode := Some(true),
    socialShareButtons := None,
    newsletterSignup := None,
    backgroundImage := None,
    links := [
      Link("Website", "https://janesmith.com", None, Some("/button-icons/chatzopoulos-logo.png"), Some(true), None),
      Link("Facebook", "https://www.facebook.com/eirinaki.chatzopoulou", Some("facebook"), None, None, None),
      Link("Instagram", "https://www.instagram.com/eirini.chatzopoulou/", Some("instagram"), None, None, None)
    ],
    contact := Some(ContactInfo(
      Some("+30 6983621605"),
      Some("eirini@grainsbio.com"),
      Some(Location("Thessaloniki, Krithia 572 00", Some(Coordinates(40.83811122676807, 22.97963245714484)))))),
    analytics := Some(Analytics(true, Some(Google), Some("G-XXXXXXXX"))))

  /** The table of client configurations, keyed by client id. */
  const Table: map<string, ClientConfig> := map["aggi" := Aggi, "ginger" := Ginger]

  /** Every entry is filed under its own client id. */
  lemma TableKeysAreClientIds()
    ensures Table.Keys == {"aggi", "ginger"}
    ensures forall id :: id in Table ==> Table[id].clientId == id
  {
  }

  /** In every entry exactly one link is pinned, and it is the first. */
  lemma {:induction false} TableFirstLinkOnlyPinned()
    ensures forall id :: id in Table ==>
      |Table[id].links| > 0 && Table[id].links[0].Pinned() &&
      forall i :: 1 <= i < |Table[id].links| ==> !Table[id].links[i].Pinned()
  {
    assert Table["aggi"] == Aggi && Table["ginger"] == Ginger;
  }

  /** Names that every plain JavaScript object inherits from `Object.prototype`;
      each of them reads as a function or an object, so as a truthy value. */
  const ObjectPrototypeMembers: set<string> := {
    "constructor", "hasOwnProperty", "isPrototypeOf", "propertyIsEnumerable",
    "toLocaleString", "toString", "valueOf", "__proto__",
    "__defineGetter__", "__defineSetter__", "__lookupGetter__", "__lookupSetter__"
  }

  /** What `clientConfigs[clientId] || null` evaluates to on the object literal. */
  datatype LookupValue = Null | Found(config: ClientConfig) | Inherited(member: string)

  /** The lookup as written: an indexed read of a plain object, then `|| null`.
      An own key gives its entry; an inherited member name gives that member,
      which is truthy and so survives the `|| null`; anything else gives null. */
  function LookupAsWritten(clientId: string): (r: LookupValue)
    ensures r.Found? <==> clientId in Table
    ensures r.Found? ==> r.config.clientId == clientId
    ensures r.Null? <==> clientId !in Table && clientId !in ObjectPrototypeMembers
  {
    if clientId in Table then Found(Table[clientId])
    else if clientId in ObjectPrototypeMembers then Inherited(clientId)
    else Null
  }

  /** The route `/toString` is not a client, yet the lookup as written does not
      come back null: it yields the inherited `toString` function. */
  lemma InheritedNameIsNotNull()
    ensures "toString" !in Table
    ensures LookupAsWritten("toString") == Inherited("toString")
  {
  }

  /** The lookup the rest of the model uses: an own key of the table gives
      its entry, every other id gives null. Key matching is exact. */
  function GetClientConfig(clientId: string): (r: Option<ClientConfig>)
    ensures r.Some? <==> clientId in Table
    ensures r.Some? ==> r.value == Table[clientId] && r.value.clientId == clientId
  {
    if clientId in Table then Some(Table[clientId]) else None
  }

  /** Off the inherited names, the corrected lookup and the one as written agree. */
  lemma {:induction false} LookupAgreesOffPrototype(clientId: string)
    requires clientId !in ObjectPrototypeMembers
    ensures GetClientConfig(clientId).None? <==> LookupAsWritten(clientId).Null?
    ensures GetClientConfig(clientId).Some? ==>
      LookupAsWritten(clientId) == Found(GetClientConfig(clientId).value)
  {
  }

  /** Keys are matched case-sensitively: "Aggi" is not "aggi". */
  lemma LookupIsCaseSensitive()
    ensures GetClientConfig("aggi") == Some(Aggi)
    ensures GetClientConfig("Aggi") == None
  {
  }
}

=== FILE: contact_info.dfy ===
/**
 * The contact block: the `tel:`, `mailto:` and map links, the icon colour
 * chosen by theme, and the cards it renders.
 */
module Contact {
  import opened JsRuntime
  import opened Config
  import opened Theme

  /** The characters the regular-expression class `\s` matches in ECMAScript:
      the white-space and line-terminator code points. */
  predicate IsJsWhitespace(c: char) {
    c in {'\U{0009}', '\U{000A}', '\U{000B}', '\U{000C}', '\U{000D}', '\U{0020}', '\U{00A0}',
          '\U{1680}', '\U{2000}', '\U{2001}', '\U{2002}', '\U{2003}', '\U{2004}', '\U{2005}',
          '\U{2006}', '\U{2007}', '\U{2008}', '\U{2009}', '\U{200A}', '\U{2028}', '\U{2029}',
          '\U{202F}', '\U{205F}', '\U{3000}', '\U{FEFF}'}
  }

  predicate NoWhitespace(s: string) {
    forall i :: 0 <= i < |s| ==> !IsJsWhitespace(s[i])
  }

  /** `s.replace(/\s+/g, '')`: every run of white space is deleted, which
      deletes every white-space character. */
  function StripWhitespace(s: string): (r: string)
    ensures NoWhitespace(r)
    ensures |r| <= |s|
    decreases |s|
  {
    if s == [] then []
    else if IsJsWhitespace(s[0]) then StripWhitespace(s[1..])
    else [s[0]] + StripWhitespace(s[1..])
  }

  /** Stripping works piece by piece, so what is kept stays in order. */
  lemma {:induction false} StripConcat(a: string, b: string)
    ensures StripWhitespace(a + b) == StripWhitespace(a) + StripWhitespace(b)
    decreases |a|
  {
    if a != [] {
      var ab := a + b;
      assert ab != [] && ab[0] == a[0] && ab[1..] == a[1..] + b;
      StripConcat(a[1..], b);
    } else {
      assert a + b == b;
    }
  }

  /** A string without white space is left as it is; stripping twice is
      stripping once. */
  lemma {:induction false} StripKeepsClean(s: string)
    requires NoWhitespace(s)
    ensures StripWhitespace(s) == s
    decreases |s|
  {
    if s != [] {
      StripKeepsClean(s[1..]);
    }
  }

  /** A string of white space only strips to nothing: with `StripConcat` and
      `StripKeepsClean`, every white-space character is deleted and every other
      character kept. */
  lemma {:induction false} StripAllWhitespace(s: string)
    requires forall i :: 0 <= i < |s| ==> IsJsWhitespace(s[i])
    ensures StripWhitespace(s) == ""
    decreases |s|
  {
    if s != [] {
      StripAllWhitespace(s[1..]);
    }
  }

  const TelPrefix := "tel:"
  const MailtoPrefix := "mailto:"
  const MapsPrefix := "https://maps.google.com/?q="

  /** `getPhoneUrl(phone)`. */
  function PhoneUrl(phone: string): string {
    TelPrefix + StripWhitespace(phone)
  }

  /** The phone link is `tel:` and the number with its white space gone:
      the rest of the number is kept, in order, and a clean number is kept whole. */
  lemma {:induction false} PhoneUrlShape(phone: string, a: string, b: string)
    requires phone == a + b
    ensures var u := PhoneUrl(phone);
      |u| >= |TelPrefix| && u[..|TelPrefix|] == TelPrefix &&
      NoWhitespace(u[|TelPrefix|..]) &&
      u[|TelPrefix|..] == StripWhitespace(a) + StripWhitespace(b)
    ensures NoWhitespace(phone) ==> PhoneUrl(phone) == TelPrefix + phone
  {
    StripConcat(a, b);
    if NoWhitespace(phone) {
      StripKeepsClean(phone);
    }
  }

  /** `getEmailUrl(email)`. */
  function EmailUrl(email: string): (u: string)
    ensures |u| == |MailtoPrefix| + |email|
    ensures u[..|MailtoPrefix|] == MailtoPrefix && u[|MailtoPrefix|..] == email
  {
    MailtoPrefix + email
  }

  /** `getMapUrl(address, coordinates)`. The number-to-text conversion of the
      template and `encodeURIComponent` are given as functions. */
  function MapUrl(address: string, coordinates: Option<Coordinates>,
                  numberText: real -> string, encode: string -> string): string
  {
    match coordinates
    case Some(c) => MapsPrefix + numberText(c.lat) + "," + numberText(c.lng)
    case None => MapsPrefix + encode(address)
  }

  /** The map link is the maps prefix followed by the query: with coordinates,
      latitude and longitude as text separated by a comma, the address playing
      no part; without them, the encoded address. */
  lemma MapUrlChoice(a1: string, a2: string, coordinates: Option<Coordinates>,
                     numberText: real -> string, encode: string -> string)
    ensures |MapUrl(a1, coordinates, numberText, encode)| >= |MapsPrefix| &&
            MapUrl(a1, coordinates, numberText, encode)[..|MapsPrefix|] == MapsPrefix
    ensures coordinates.Some? ==>
      MapUrl(a1, coordinates, numberText, encode)[|MapsPrefix|..] ==
        numberText(coordinates.value.lat) + "," + numberText(coordinates.value.lng)
    ensures coordinates.Some? ==>
      MapUrl(a1, coordinates, numberText, encode) == MapUrl(a2, coordinates, numberText, encode)
    ensures coordinates.None? ==>
      MapUrl(a1, coordinates, numberText, encode)[|MapsPrefix|..] == encode(a1)
  {
  }

  const DarkContactIcon := "rgba(255, 255, 255, 0.9)"
  const DefaultContactIcon := "currentColor"

  /** The contact icon colour; `None` is an undefined colour. The theme
      defaults to "light". */
  function IconColor(theme: Option<string>, styles: ThemeStyles): Option<string> {
    var t := theme.GetOr("light");
    if t == "dark" then Some(DarkContactIcon)
    else if t == "custom" then
      match styles.customStyles
      case None => None
      case Some(cs) =>
        match cs.contactIcon
        case None => None
        case Some(icon) => Some(icon.color)
    else Some(DefaultContactIcon)
  }

  /** With the bundle the resolver gives for the same theme, the contact icons
      are translucent white under "dark", the link text colour under "custom"
      with a custom theme, undefined under "custom" without one, and the
      current colour under every other theme. */
  lemma {:induction false} IconColorForResolvedTheme(theme: Option<string>, ct: Option<CustomTheme>)
    ensures var c := IconColor(theme, GetThemeStyles(theme, ct));
      && (theme == Some("dark") ==> c == Some(DarkContactIcon))
      && (theme == Some("custom") && ct.Some? ==> c == Some(ct.value.linkText))
      && (theme == Some("custom") && ct.None? ==> c.None?)
      && (theme != Some("dark") && theme != Some("custom") ==> c == Some(DefaultContactIcon))
  {
    if theme == Some("dark") {
      DarkIgnoresCustomTheme(ct);
      IconColorUnder("dark", DarkTheme);
    } else if theme == Some("custom") && ct.Some? {
      IconColorCustom(ct.value);
    } else {
      FallbackIsLight(theme, ct);
      IconColorLight(theme);
    }
  }

  /** The colour a named theme gives with a bundle that has no inline styles. */
  lemma IconColorUnder(name: string, styles: ThemeStyles)
    requires styles.customStyles.None?
    ensures IconColor(Some(name), styles) ==
      if name == "dark" then Some(DarkContactIcon)
      else if name == "custom" then None
      else Some(DefaultContactIcon)
  {
  }

  lemma IconColorLight(theme: Option<string>)
    ensures theme != Some("dark") && theme != Some("custom") ==> IconColor(theme, LightTheme) == Some(DefaultContactIcon)
    ensures theme == Some("custom") ==> IconColor(theme, LightTheme).None?
  {
    if theme.Some? {
      IconColorUnder(theme.value, LightTheme);
    }
  }

  lemma IconColorCustom(ct: CustomTheme)
    ensures IconColor(Some("custom"), GetThemeStyles(Some("custom"), Some(ct))) == Some(ct.linkText)
  {
    var r := GetThemeStyles(Some("custom"), Some(ct));
    assert r == CustomBundle(ct);
    assert r.customStyles.value.contactIcon == Some(IconStyle(ct.linkText));
  }

  /** The client "ginger" asks for the custom theme without one: its contact
      icons get an undefined colour. */
  lemma {:induction false} GingerContactIconUndefined()
    ensures IconColor(Table["ginger"].ThemeText(), GetThemeStyles(Table["ginger"].ThemeText(), Table["ginger"].customTheme)).None?
  {
    IconColorForResolvedTheme(Some("custom"), None);
  }

  /** `hasContactMethods`: one for a truthy phone, one for a truthy email. */
  function ContactMethodCount(contact: ContactInfo): (n: nat)
    ensures n <= 2
    ensures n == 0 <==> !Truthy(contact.phone) && !Truthy(contact.email)
    ensures n == 2 <==> Truthy(contact.phone) && Truthy(contact.email)
  {
    (if Truthy(contact.phone) then 1 else 0) + (if Truthy(contact.email) then 1 else 0)
  }

  datatype CardKind = PhoneCard | EmailCard | LocationCard

  /** One rendered contact card: an anchor in the contact-card slot. */
  datatype Card = Card(
    kind: CardKind,
    href: string,
    text: string,
    icon: string,
    className: Option<string>,
    style: Option<Style>,
    iconColor: Option<string>)

  /** The phone/email row (rendered only when it has a method) and the
      location card. */
  datatype ContactView = ContactView(methodsRow: Option<seq<Card>>, locationCard: Option<Card>)

  function CardStyle(styles: ThemeStyles): Option<Style> {
    match styles.customStyles
    case None => None
    case Some(cs) => cs.contactCard
  }

  /** The `ContactInfo` component. */
  function RenderContact(contact: ContactInfo, styles: ThemeStyles, theme: Option<string>,
                         numberText: real -> string, encode: string -> string): ContactView
  {
    var color := IconColor(theme, styles);
    var phoneCards :=
      if Truthy(contact.phone)
      then [Card(PhoneCard, PhoneUrl(contact.phone.value), contact.phone.value, "phone", styles.contactCard, CardStyle(styles), color)]
      else [];
    var emailCards :=
      if Truthy(contact.email)
      then [Card(EmailCard, EmailUrl(contact.email.value), contact.email.value, "email", styles.contactCard, CardStyle(styles), color)]
      else [];
    ContactView(
      methodsRow := if ContactMethodCount(contact) > 0 then Some(phoneCards + emailCards) else None,
      locationCard :=
        match contact.location
        case None => None
        case Some(loc) =>
          Some(Card(LocationCard, MapUrl(loc.address, loc.coordinates, numberText, encode), loc.address,
                    "location", styles.contactCard, CardStyle(styles), color)))
  }

  /** Every card the view holds, in order. */
  function Cards(v: ContactView): seq<Card> {
    (if v.methodsRow.Some? then v.methodsRow.value else []) +
    (if v.locationCard.Some? then [v.locationCard.value] else [])
  }

  /** The row is rendered exactly when there is a method, with one card per
      method, phone before email, and no location card among them; the
      location slot holds a location card exactly when there is a location;
      every card sits in the contact-card slot with its inline style and shares
      one icon colour. */
  lemma {:induction false} ContactCards(contact: ContactInfo, styles: ThemeStyles, theme: Option<string>,
                                        numberText: real -> string, encode: string -> string)
    ensures var v := RenderContact(contact, styles, theme, numberText, encode);
      && (v.methodsRow.Some? <==> ContactMethodCount(contact) > 0)
      && (v.methodsRow.Some? ==> |v.methodsRow.value| == ContactMethodCount(contact))
      && (v.methodsRow.Some? && Truthy(contact.phone) ==> v.methodsRow.value[0].kind == PhoneCard)
      && (v.methodsRow.Some? && Truthy(contact.email) ==>
            v.methodsRow.value[|v.methodsRow.value| - 1].kind == EmailCard)
      && (v.methodsRow.Some? ==> forall i, j :: 0 <= i < j < |v.methodsRow.value| ==>
            v.methodsRow.value[i].kind != v.methodsRow.value[j].kind)
      && (v.methodsRow.Some? ==> forall i :: 0 <= i < |v.methodsRow.value| ==>
            v.methodsRow.value[i].kind != LocationCard)
      && (v.locationCard.Some? <==> contact.location.Some?)
      && (v.locationCard.Some? ==> v.locationCard.value.kind == LocationCard)
      && |Cards(v)| == ContactMethodCount(contact) + (if contact.location.Some? then 1 else 0)
      && forall i :: 0 <= i < |Cards(v)| ==>
           && Cards(v)[i].className == styles.contactCard
           && Cards(v)[i].style == CardStyle(styles)
           && Cards(v)[i].iconColor == IconColor(theme, styles)
  {
  }

  /** Each card links where its kind says: a phone card (present exactly when
      the phone is truthy) to `tel:` and the stripped number, an email card
      (present exactly when the email is truthy) to `mailto:` and the address,
      the location card to the map link of its address and coordinates; each
      card shows the text it links. The location slot's card is the map link. */
  lemma {:induction false} ContactLinks(contact: ContactInfo, styles: ThemeStyles, theme: Option<string>,
                                        numberText: real -> string, encode: string -> string)
    ensures var cs := Cards(RenderContact(contact, styles, theme, numberText, encode));
      && (Truthy(contact.phone) <==> exists i :: 0 <= i < |cs| && cs[i].kind == PhoneCard)
      && (Truthy(contact.email) <==> exists i :: 0 <= i < |cs| && cs[i].kind == EmailCard)
      && (forall i :: 0 <= i < |cs| && cs[i].kind == PhoneCard ==>
            Truthy(contact.phone) && cs[i].text == contact.phone.value &&
            cs[i].href == TelPrefix + StripWhitespace(contact.phone.value))
      && (forall i :: 0 <= i < |cs| && cs[i].kind == EmailCard ==>
            Truthy(contact.email) && cs[i].text == contact.email.value &&
            cs[i].href == MailtoPrefix + contact.email.value)
      && (forall i :: 0 <= i < |cs| && cs[i].kind == LocationCard ==>
            contact.location.Some? && cs[i].text == contact.location.value.address &&
            cs[i].href == MapUrl(contact.location.value.address, contact.location.value.coordinates, numberText, encode))
    ensures var v := RenderContact(contact, styles, theme, numberText, encode);
      v.locationCard.Some? ==>
        v.locationCard.value.text == contact.location.value.address &&
        v.locationCard.value.href == MapUrl(contact.location.value.address, contact.location.value.coordinates, numberText, encode)
  {
    var cs := Cards(RenderContact(contact, styles, theme, numberText, encode));
    if Truthy(contact.phone) {
      assert cs[0].kind == PhoneCard;
    }
    if Truthy(contact.email) {
      var j := if Truthy(contact.phone) then 1 else 0;
      assert cs[j].kind == EmailCard;
    }
  }
}

=== FILE: js_runtime.dfy ===
/**
 * The few JavaScript built-ins the link-tree page relies on, stated over
 * Dafny values: optional values (`undefined`), truthiness of optional strings,
 * and `String.prototype.split` / `Array.prototype.join`.
 */
module JsRuntime {

  /** An optional value; `None` is JavaScript's `undefined`. */
  datatype Option<+T> = None | Some(value: T) {
    function GetOr(default: T): T {
      match this
      case Some(v) => v
      case None => default
    }
  }

  /** An optional string is truthy when it is present and not the empty string. */
  predicate Truthy(s: Option<string>) {
    s.Some? && s.value != ""
  }

  /** `a || b` for an optional string and a fallback string. */
  function OrElse(s: Option<string>, fallback: string): (r: string)
    ensures Truthy(s) ==> r == s.value
    ensures !Truthy(s) ==> r == fallback
  {
    if Truthy(s) then s.value else fallback
  }

  /** An optional boolean is truthy only when it is present and true. */
  predicate TruthyBool(b: Option<bool>) {
    b == Some(true)
  }

  /** `s.split(sep)` for a one-character separator. */
  function Split(s: string, sep: char): (parts: seq<string>)
    ensures |parts| >= 1
    ensures forall i :: 0 <= i < |parts| ==> sep !in parts[i]
    decreases |s|
  {
    if |s| == 0 then [""]
    else if s[0] == sep then [""] + Split(s[1..], sep)
    else
      var rest := Split(s[1..], sep);
      [[s[0]] + rest[0]] + rest[1..]
  }

  /** `parts.join(sep)`. */
  function Join(parts: seq<string>, sep: string): string
    decreases |parts|
  {
    if |parts| == 0 then ""
    else if |parts| == 1 then parts[0]
    else parts[0] + sep + Join(parts[1..], sep)
  }

  /** `s.split(sep)` for a separator string of one or more characters:
      the leftmost occurrences, without overlap, cut the string. */
  function SplitOn(s: string, sep: string): (parts: seq<string>)
    requires |sep| > 0
    ensures |parts| >= 1
    decreases |s|
  {
    if |s| < |sep| then [s]
    else if s[..|sep|] == sep then [""] + SplitOn(s[|sep|..], sep)
    else
      var rest := SplitOn(s[1..], sep);
      [[s[0]] + rest[0]] + rest[1..]
  }

  /** Index of the first `c` in `s`, or `|s|` when there is none. */
  function FirstIndexOf(s: string, c: char): (r: nat)
    ensures r <= |s|
    ensures c !in s[..r]
    ensures r < |s| ==> s[r] == c
    decreases |s|
  {
    if |s| == 0 then 0
    else if s[0] == c then 0
    else 1 + FirstIndexOf(s[1..], c)
  }

  /** Index just past the last `c` in `s`, or 0 when there is none. */
  function AfterLastIndexOf(s: string, c: char): (r: nat)
    ensures r <= |s|
    ensures c !in s[r..]
    ensures r > 0 ==> s[r - 1] == c
    decreases |s|
  {
    if |s| == 0 then 0
    else if s[|s| - 1] == c then |s|
    else AfterLastIndexOf(s[..|s| - 1], c)
  }

  /** Splitting on a character and joining with it gives the string back. */
  lemma {:induction false} JoinSplit(s: string, sep: char)
    ensures Join(Split(s, sep), [sep]) == s
    decreases |s|
  {
    if |s| == 0 {
    } else if s[0] == sep {
      JoinSplit(s[1..], sep);
      assert s == [sep] + s[1..];
    } else {
      JoinSplit(s[1..], sep);
      var rest := Split(s[1..], sep);
      if |rest| == 1 {
        assert s == [s[0]] + rest[0];
      } else {
        assert Join(rest, [sep]) == rest[0] + [sep] + Join(rest[1..], [sep]);
        assert s == [s[0]] + s[1..];
      }
    }
  }

  /** The first piece of a split is the text before the first separator. */
  lemma {:induction false} SplitFirst(s: string, sep: char)
    ensures Split(s, sep)[0] == s[..FirstIndexOf(s, sep)]
    decreases |s|
  {
    if |s| > 0 && s[0] != sep {
      SplitFirst(s[1..], sep);
    }
  }

  /** The last piece of a split is the text after the last separator. */
  lemma {:induction false} SplitLast(s: string, sep: char)
    ensures var parts := Split(s, sep); parts[|parts| - 1] == s[AfterLastIndexOf(s, sep)..]
    decreases |s|
  {
    if |s| == 0 {
    } else {
      SplitLast(s[1..], sep);
      var parts := Split(s, sep);
      var rest := Split(s[1..], sep);
      var k := AfterLastIndexOf(s[1..], sep);
      AfterLastShift(s, sep);
      if s[0] == sep {
        assert parts[|parts| - 1] == rest[|rest| - 1];
      } else if |rest| == 1 {
        JoinSplit(s[1..], sep);
        assert sep !in s[1..];
      } else {
        SplitMany(s[1..], sep);
        assert parts[|parts| - 1] == rest[|rest| - 1];
        assert s[k + 1..] == s[1..][k..];
      }
    }
  }

  /** A string without the separator is a single piece. */
  lemma {:induction false} SplitNoSep(s: string, sep: char)
    requires sep !in s
    ensures Split(s, sep) == [s]
    decreases |s|
  {
    if |s| > 0 {
      SplitNoSep(s[1..], sep);
      assert [s[0]] + s[1..] == s;
    }
  }

  /** A string cut into several pieces holds the separator. */
  lemma {:induction false} SplitMany(s: string, sep: char)
    requires |Split(s, sep)| > 1
    ensures sep in s
    decreases |s|
  {
    if s[0] != sep {
      SplitMany(s[1..], sep);
    }
  }

  /** How the last-separator position of `s` relates to that of `s[1..]`. */
  lemma {:induction false} AfterLastShift(s: string, c: char)
    requires |s| > 0
    ensures var k := AfterLastIndexOf(s[1..], c);
      AfterLastIndexOf(s, c) == if k > 0 || s[0] == c then k + 1 else 0
    decreases |s|
  {
    if |s| > 1 && s[|s| - 1] != c {
      assert s[1..][..|s[1..]| - 1] == s[..|s| - 1][1..];
      AfterLastShift(s[..|s| - 1], c);
    }
  }

  /** Whether `t` occurs in `s` at position `i`. */
  predicate OccursAt(s: string, t: string, i: int) {
    0 <= i <= |s| - |t| && s[i..i + |t|] == t
  }

  /** Whether `t` occurs in `s` at some position. */
  predicate Contains(s: string, t: string) {
    exists i :: 0 <= i <= |s| && OccursAt(s, t, i)
  }

  /** No proper prefix of `sep` is also a suffix of it, so two occurrences of
      `sep` never overlap (", " is such a separator). */
  predicate NonOverlapping(sep: string) {
    forall k :: 0 < k < |sep| ==> sep[..k] != sep[|sep| - k..]
  }

  /** Dropping the first character keeps `t` absent. */
  lemma ContainsTail(p: string, t: string)
    requires |p| > 0 && !Contains(p, t)
    ensures !Contains(p[1..], t)
  {
    forall i | OccursAt(p[1..], t, i)
      ensures OccursAt(p, t, i + 1)
    {
      assert p[1..][i..i + |t|] == p[i + 1..i + 1 + |t|];
    }
  }

  /** A string in which the separator does not occur is not cut. */
  lemma {:induction false} SplitOnNoSep(p: string, sep: string)
    requires |sep| > 0 && !Contains(p, sep)
    ensures SplitOn(p, sep) == [p]
    decreases |p|
  {
    if |p| >= |sep| {
      assert !OccursAt(p, sep, 0);
      ContainsTail(p, sep);
      SplitOnNoSep(p[1..], sep);
      assert [p[0]] + p[1..] == p;
    }
  }

  /** The head of a piece followed by a non-overlapping separator is not an
      occurrence of the separator, unless the piece is empty. */
  lemma NoCutAtHead(p: string, sep: string, rest: string)
    requires |sep| > 0 && NonOverlapping(sep) && !Contains(p, sep) && |p| > 0
    ensures (p + sep + rest)[..|sep|] != sep
  {
    var s := p + sep + rest;
    if |p| >= |sep| {
      assert !OccursAt(p, sep, 0);
      assert s[..|sep|] == p[0..0 + |sep|];
    } else {
      var k := |sep| - |p|;
      assert s[..|sep|][|p|..] == sep[..k];
      assert sep[..k] != sep[|sep| - k..];
    }
  }

  /** A piece in which a non-overlapping separator does not occur, then the
      separator: the cut falls exactly there. */
  lemma {:induction false} SplitOnAfterPiece(p: string, sep: string, rest: string)
    requires |sep| > 0 && NonOverlapping(sep) && !Contains(p, sep)
    ensures SplitOn(p + sep + rest, sep) == [p] + SplitOn(rest, sep)
    decreases |p|
  {
    var s := p + sep + rest;
    if |p| == 0 {
      assert s[..|sep|] == sep;
      assert s[|sep|..] == rest;
    } else {
      NoCutAtHead(p, sep, rest);
      ContainsTail(p, sep);
      assert s[1..] == p[1..] + sep + rest;
      SplitOnAfterPiece(p[1..], sep, rest);
      assert [p[0]] + p[1..] == p;
    }
  }

  /** Joining pieces in which a non-overlapping separator does not occur, and
      splitting again, restores the pieces in their order. */
  lemma {:induction false} SplitOnJoin(parts: seq<string>, sep: string)
    requires |sep| > 0 && NonOverlapping(sep) && |parts| >= 1
    requires forall i :: 0 <= i < |parts| ==> !Contains(parts[i], sep)
    ensures SplitOn(Join(parts, sep), sep) == parts
    decreases |parts|
  {
    if |parts| == 1 {
      SplitOnNoSep(parts[0], sep);
    } else {
      SplitOnJoin(parts[1..], sep);
      SplitOnAfterPiece(parts[0], sep, Join(parts[1..], sep));
    }
  }
}

=== FILE: link_item.dfy ===
/**
 * One rendered link: its icon name taken from an icon path, the slot class and
 * inline style chosen by the pinned flag, and the icon colour chosen by theme.
 */
module LinkItem {
  import opened JsRuntime
  import opened Config
  import opened Theme

  /** `getIconName(iconPath)`: `iconPath.split("/").pop() || ""`, then the part
      before the first dot; the empty path gives the empty name. */
  function GetIconName(iconPath: string): string {
    if iconPath == "" then ""
    else
      var segments := Split(iconPath, '/');
      var fileName := OrElse(Some(segments[|segments| - 1]), "");
      Split(fileName, '.')[0]
  }

  /** The last `/`-separated segment of a path, by position. */
  function LastSegment(path: string): (seg: string)
    ensures '/' !in seg
    ensures |seg| <= |path| && seg == path[|path| - |seg|..]
    ensures |seg| == |path| || path[|path| - |seg| - 1] == '/'
  {
    path[AfterLastIndexOf(path, '/')..]
  }

  /** The icon name by position: the last segment up to its first dot. */
  function IconNameByPosition(path: string): (name: string)
    ensures '/' !in name && '.' !in name
    ensures |name| <= |LastSegment(path)| && name == LastSegment(path)[..|name|]
    ensures name == LastSegment(path) || LastSegment(path)[|name|] == '.'
  {
    var seg := LastSegment(path);
    seg[..FirstIndexOf(seg, '.')]
  }

  /** The split-and-pop computation names the same text as the positional one. */
  lemma {:induction false} GetIconNameByPosition(iconPath: string)
    ensures GetIconName(iconPath) == IconNameByPosition(iconPath)
  {
    if iconPath != "" {
      SplitLast(iconPath, '/');
      SplitFirst(LastSegment(iconPath), '.');
    }
  }

  /** The icon name has no slash and no dot, and it begins the last segment. */
  lemma {:induction false} IconNameIsStemOfLastSegment(iconPath: string)
    ensures var name := GetIconName(iconPath);
      '/' !in name && '.' !in name &&
      |name| <= |LastSegment(iconPath)| && name == LastSegment(iconPath)[..|name|]
  {
    GetIconNameByPosition(iconPath);
  }

  /** A bare name with no slash and no dot comes back unchanged. */
  lemma {:induction false} BareNameUnchanged(name: string)
    requires '/' !in name && '.' !in name
    ensures GetIconName(name) == name
  {
    if name != "" {
      SplitNoSep(name, '/');
      SplitNoSep(name, '.');
    }
  }

  lemma IconNameExamples()
    ensures GetIconName("") == ""
    ensures GetIconName("facebook") == "facebook"
  {
    BareNameUnchanged("facebook");
  }

  const DarkIconColor := "#ffffff"
  const LightIconColor := "#4b5563"

  datatype IconView = IconView(name: string, color: string)

  /** What a link item renders: the wrapper's slot class and inline style, the
      image or else the icon, and the anchor. */
  datatype LinkView = LinkView(
    className: string,
    style: Option<Style>,
    image: Option<string>,
    icon: Option<IconView>,
    href: string,
    title: string)

  /** The `LinkItem` component; `isPinned` defaults to false, `theme` to "light". */
  function RenderLink(link: Link, isPinned: Option<bool>, styles: ThemeStyles, theme: Option<string>): LinkView {
    var pinned := isPinned.GetOr(false);
    var t := theme.GetOr("light");
    LinkView(
      className := if pinned then styles.pinnedLink else styles.link,
      style := match styles.customStyles
               case None => None
               case Some(cs) => if pinned then cs.pinnedLink else cs.link,
      image := if Truthy(link.image) then link.image else None,
      icon := if !Truthy(link.image) && Truthy(link.icon)
              then Some(IconView(GetIconName(link.icon.value), if t == "dark" then DarkIconColor else LightIconColor))
              else None,
      href := link.url,
      title := link.title)
  }

  /** A pinned item takes the pinned slot's class and style, any other item the
      link slot's; an absent flag counts as not pinned. */
  lemma SlotFollowsPinnedFlag(link: Link, isPinned: Option<bool>, styles: ThemeStyles, theme: Option<string>)
    ensures var v := RenderLink(link, isPinned, styles, theme);
      && (isPinned == Some(true) ==> v.className == styles.pinnedLink)
      && (isPinned != Some(true) ==> v.className == styles.link)
      && (styles.customStyles.None? ==> v.style.None?)
      && (styles.customStyles.Some? && isPinned == Some(true) ==> v.style == styles.customStyles.value.pinnedLink)
      && (styles.customStyles.Some? && isPinned != Some(true) ==> v.style == styles.customStyles.value.link)
  {
  }

  /** The image is the link's own, drawn exactly when truthy; the icon is
      drawn only when there is no image and there is an icon, under the name
      `getIconName` gives for the icon path, white exactly under the dark theme
      and grey otherwise, an absent theme counting as light; the anchor points
      at the link's URL with its title. */
  lemma IconRule(link: Link, isPinned: Option<bool>, styles: ThemeStyles, theme: Option<string>)
    ensures var v := RenderLink(link, isPinned, styles, theme);
      && (v.icon.Some? <==> !Truthy(link.image) && Truthy(link.icon))
      && (v.image.Some? <==> Truthy(link.image))
      && !(v.image.Some? && v.icon.Some?)
      && (v.icon.Some? ==> (v.icon.value.color == DarkIconColor <==> theme == Some("dark")))
      && (v.icon.Some? ==> v.icon.value.color in {DarkIconColor, LightIconColor})
      && (v.image.Some? ==> v.image == link.image)
      && (v.icon.Some? ==> link.icon.Some? && v.icon.value.name == GetIconName(link.icon.value))
      && v.href == link.url && v.title == link.title
  {
  }

  /** Under a custom theme a pinned item is styled exactly as a regular one
      plus a 2px border width. */
  lemma {:induction false} CustomPinnedItemHasBorderWidth(link: Link, ct: CustomTheme, theme: Option<string>)
    ensures var styles := GetThemeStyles(Some("custom"), Some(ct));
      var pinned := RenderLink(link, Some(true), styles, theme).style;
      var regular := RenderLink(link, Some(false), styles, theme).style;
      pinned.Some? && regular.Some? &&
      pinned.value == regular.value[BorderWidth := Some(PinnedBorderWidth)]
  {
    PinnedIsLinkWithBorderWidth(ct);
  }
}

=== FILE: link_tree.dfy ===
/**
 * The profile page: the split of links into pinned and regular ones, the
 * contact-section test, the container style, and the page's own state (the
 * QR toggle and the profile URL set once the page is mounted).
 */
module LinkTree {
  import opened JsRuntime
  import opened Config
  import opened Theme
  import opened LinkItem
  import opened Contact

  /** `links.filter(link => link.isPinned)` for `pinned`, and
      `links.filter(link => !link.isPinned)` for its negation. */
  function FilterPinned(links: seq<Link>, pinned: bool): (r: seq<Link>)
    ensures |r| <= |links|
    ensures forall i :: 0 <= i < |r| ==> r[i].Pinned() == pinned
    decreases |links|
  {
    if links == [] then []
    else (if links[0].Pinned() == pinned then [links[0]] else []) + FilterPinned(links[1..], pinned)
  }

  function PinnedLinks(links: seq<Link>): seq<Link> {
    FilterPinned(links, true)
  }

  function RegularLinks(links: seq<Link>): seq<Link> {
    FilterPinned(links, false)
  }

  /** Filtering a concatenation filters each part, so the order of the kept
      links is their original order. */
  lemma {:induction false} FilterConcat(a: seq<Link>, b: seq<Link>, pinned: bool)
    ensures FilterPinned(a + b, pinned) == FilterPinned(a, pinned) + FilterPinned(b, pinned)
    decreases |a|
  {
    if a == [] {
      assert a + b == b;
    } else {
      assert (a + b)[0] == a[0] && (a + b)[1..] == a[1..] + b;
      FilterConcat(a[1..], b, pinned);
    }
  }

  /** The pinned and the regular links together are the links, each exactly
      once: the lengths add up and the multisets add up. */
  lemma {:induction false} PartitionIsPermutation(links: seq<Link>)
    ensures |PinnedLinks(links)| + |RegularLinks(links)| == |links|
    ensures multiset(PinnedLinks(links)) + multiset(RegularLinks(links)) == multiset(links)
    decreases |links|
  {
    if links != [] {
      PartitionIsPermutation(links[1..]);
      assert links == [links[0]] + links[1..];
    }
  }

  /** A link is among the pinned ones exactly when it is in the list and pinned. */
  lemma {:induction false} PinnedMembership(links: seq<Link>, l: Link)
    ensures l in PinnedLinks(links) <==> l in links && l.Pinned()
    ensures l in RegularLinks(links) <==> l in links && !l.Pinned()
  {
    PartitionIsPermutation(links);
    assert l in links <==> l in multiset(links);
  }

  /** A link as placed on the page: the link and the `isPinned` flag it gets. */
  datatype Placed = Placed(link: Link, pinned: bool)

  function PlaceAll(links: seq<Link>, pinned: bool): (r: seq<Placed>)
    ensures |r| == |links|
    ensures forall i :: 0 <= i < |r| ==> r[i] == Placed(links[i], pinned)
  {
    seq(|links|, i requires 0 <= i < |links| => Placed(links[i], pinned))
  }

  /** The links in the order the page renders them: the pinned section, then
      the regular list. */
  function RenderedLinks(links: seq<Link>): seq<Placed> {
    PlaceAll(PinnedLinks(links), true) + PlaceAll(RegularLinks(links), false)
  }

  /** Every pinned item comes before every regular one; each item's flag is
      its link's own; the rendered links are the pinned links then the regular
      ones, which together are the input's links, each as often as listed. */
  lemma {:induction false} PinnedFirst(links: seq<Link>)
    ensures var r := RenderedLinks(links);
      var order := PinnedLinks(links) + RegularLinks(links);
      && |r| == |links| == |order|
      && (forall i, j :: 0 <= i < j < |r| && r[j].pinned ==> r[i].pinned)
      && (forall i :: 0 <= i < |r| ==> r[i].pinned == r[i].link.Pinned())
      && (forall i :: 0 <= i < |r| ==> r[i].link == order[i])
      && multiset(order) == multiset(links)
  {
    PartitionIsPermutation(links);
  }

  /** The truthiness of each own field of a contact block, in key order. */
  function ContactFieldTruthiness(c: ContactInfo): seq<bool> {
    [Truthy(c.phone), Truthy(c.email), c.location.Some?]
  }

  /** `contact && Object.keys(contact).some(key => !!contact[key])`. */
  predicate ContactSectionShown(contact: Option<ContactInfo>) {
    contact.Some? &&
    exists i :: 0 <= i < |ContactFieldTruthiness(contact.value)| && ContactFieldTruthiness(contact.value)[i]
  }

  /** The contact section is shown exactly when the contact block would render
      at least one card: it is never an empty section. */
  lemma {:induction false} ContactSectionHasCards(contact: Option<ContactInfo>, styles: ThemeStyles, theme: Option<string>,
                                                  numberText: real -> string, encode: string -> string)
    requires contact.Some?
    ensures ContactSectionShown(contact) <==>
      |Cards(RenderContact(contact.value, styles, theme, numberText, encode))| > 0
  {
    var c := contact.value;
    var keys := ContactFieldTruthiness(c);
    ContactCards(c, styles, theme, numberText, encode);
    if ContactSectionShown(contact) {
      var i :| 0 <= i < |keys| && keys[i];
      assert i == 0 || i == 1 || i == 2;
    } else {
      assert !keys[0] && !keys[1] && !keys[2];
    }
  }

  /** No contact block, no section. */
  lemma NoContactNoSection()
    ensures !ContactSectionShown(None)
  {
  }

  /** `backgroundStyle`: a covering, repeating image when one is configured,
      otherwise no properties. */
  function BackgroundStyle(backgroundImage: Option<string>): (s: Style)
    ensures !Truthy(backgroundImage) ==> s == map[]
  {
    if Truthy(backgroundImage)
    then map[
      BackgroundImage := Some("url(" + backgroundImage.value + ")"),
      BackgroundSize := Some("cover"),
      BackgroundRepeat := Some("repeat")]
    else map[]
  }

  /** The container's inline style: the background style, then the custom
      container style spread over it. */
  function ContainerStyle(backgroundImage: Option<string>, styles: ThemeStyles): Style {
    var custom := match styles.customStyles
                  case None => map[]
                  case Some(cs) => cs.container.GetOr(map[]);
    BackgroundStyle(backgroundImage) + custom
  }

  /** The custom container style wins on every key it sets; the background
      properties survive where it sets nothing; with an image the URL reads
      back to the image. */
  lemma {:induction false} ContainerStyleLayers(backgroundImage: Option<string>, styles: ThemeStyles)
    requires styles.customStyles.Some? && styles.customStyles.value.container.Some?
    ensures var s := ContainerStyle(backgroundImage, styles);
      var custom := styles.customStyles.value.container.value;
      && s.Keys == BackgroundStyle(backgroundImage).Keys + custom.Keys
      && (forall k :: k in custom ==> s[k] == custom[k])
      && (forall k :: k in BackgroundStyle(backgroundImage) && k !in custom ==> s[k] == BackgroundStyle(backgroundImage)[k])
  {
  }

  /** Without an image the page carries only the custom container style, or
      nothing; with one, its URL reads back to the image. */
  lemma {:induction false} ContainerStyleImage(backgroundImage: Option<string>, styles: ThemeStyles)
    ensures !Truthy(backgroundImage) && styles.customStyles.None? ==> ContainerStyle(backgroundImage, styles) == map[]
    ensures Truthy(backgroundImage) ==>
      var u := BackgroundStyle(backgroundImage)[BackgroundImage].value;
      |u| == |backgroundImage.value| + 5 &&
      u[..4] == "url(" && u[|u| - 1] == ')' &&
      u[4..|u| - 1] == backgroundImage.value &&
      BackgroundStyle(backgroundImage)[BackgroundSize] == Some("cover") &&
      BackgroundStyle(backgroundImage)[BackgroundRepeat] == Some("repeat")
  {
  }

  /** The link items of a page, in rendered order, each given the page's
      bundle (the page passes the one `GetThemeStyles` resolves from its
      configuration) and theme, and its section's pinned flag. */
  function PageLinkViews(links: seq<Link>, styles: ThemeStyles, theme: Option<string>): seq<LinkView> {
    var placed := RenderedLinks(links);
    seq(|placed|, i requires 0 <= i < |placed| =>
      RenderLink(placed[i].link, Some(placed[i].pinned), styles, theme))
  }

  /** The page renders its pinned links first, each in the pinned slot, then
      its regular links, each in the link slot, every item linking to its own
      URL in its list's original order. */
  lemma {:induction false} PageLinkSlots(links: seq<Link>, styles: ThemeStyles, theme: Option<string>)
    ensures var r := PageLinkViews(links, styles, theme);
      var pinned := PinnedLinks(links);
      var regular := RegularLinks(links);
      && |r| == |links|
      && |pinned| <= |r|
      && (forall i :: 0 <= i < |pinned| ==> r[i].className == styles.pinnedLink && r[i].href == pinned[i].url)
      && (forall i :: |pinned| <= i < |r| ==> r[i].className == styles.link && r[i].href == regular[i - |pinned|].url)
  {
    PartitionIsPermutation(links);
    var r := PageLinkViews(links, styles, theme);
    var placed := RenderedLinks(links);
    var pinned := PinnedLinks(links);
    var regular := RegularLinks(links);
    forall i | 0 <= i < |r|
      ensures i < |pinned| ==> r[i].className == styles.pinnedLink && r[i].href == pinned[i].url
      ensures i >= |pinned| ==> r[i].className == styles.link && r[i].href == regular[i - |pinned|].url
    {
      var p := if i < |pinned| then Placed(pinned[i], true) else Placed(regular[i - |pinned|], false);
      assert placed[i] == p;
      assert r[i] == RenderLink(p.link, Some(p.pinned), styles, theme);
      SlotFollowsPinnedFlag(p.link, Some(p.pinned), styles, theme);
    }
  }

  /** `profileUrl`: the origin, a slash, the client id. */
  function ProfileUrl(origin: string, clientId: string): (u: string)
    ensures |u| == |origin| + 1 + |clientId|
    ensures u[..|origin|] == origin && u[|origin|] == '/' && u[|origin| + 1..] == clientId
  {
    origin + "/" + clientId
  }

  const ShowQrLabel := "Show QR Code"
  const HideQrLabel := "Hide QR Code"

  /** The state the page keeps for one configuration: whether the QR code is
      shown, the profile URL, and whether the page has mounted. */
  class ProfilePage {
    const config: ClientConfig
    var showQrCode: bool
    var profileUrl: string
    var isMounted: bool

    constructor (config: ClientConfig)
      ensures this.config == config
      ensures !showQrCode && profileUrl == "" && !isMounted
      ensures !ShareButtonsShown() && !QrButtonShown() && !QrCodeShown() && !NewsletterShown()
    {
      this.config := config;
      showQrCode := false;
      profileUrl := "";
      isMounted := false;
    }

    /** The mount effect: the page is mounted and knows its URL. */
    method Mount(origin: string)
      modifies this
      ensures isMounted
      ensures profileUrl == ProfileUrl(origin, config.clientId)
      ensures showQrCode == old(showQrCode)
      ensures QrButtonShown() <==> TruthyBool(config.enableQrCode)
      ensures NewsletterShown() <==> config.newsletterSignup.Some? && config.newsletterSignup.value.enabled
      ensures ShareButtonsShown() <==> config.socialShareButtons.Some? && |config.socialShareButtons.value| > 0
      ensures QrCodeShown() <==> QrButtonShown() && showQrCode
    {
      isMounted := true;
      profileUrl := ProfileUrl(origin, config.clientId);
    }

    /** The QR button's click handler. */
    method ToggleQrCode()
      modifies this
      ensures showQrCode == !old(showQrCode)
      ensures isMounted == old(isMounted) && profileUrl == old(profileUrl)
      ensures QrButtonShown() == old(QrButtonShown())
      ensures QrCodeShown() <==> QrButtonShown() && !old(showQrCode)
    {
      showQrCode := !showQrCode;
    }

    /** The QR button is there once mounted, when the configuration enables QR codes. */
    predicate QrButtonShown()
      reads this
    {
      isMounted && TruthyBool(config.enableQrCode)
    }

    function QrButtonLabel(): (text: string)
      reads this
      ensures text == HideQrLabel <==> showQrCode
      ensures text == ShowQrLabel <==> !showQrCode
    {
      if showQrCode then HideQrLabel else ShowQrLabel
    }

    /** The share buttons: once mounted, when the list is present and not empty. */
    predicate ShareButtonsShown()
      reads this
    {
      isMounted && config.socialShareButtons.Some? && |config.socialShareButtons.value| > 0
    }

    /** The newsletter form: once mounted, when its settings are present and enabled. */
    predicate NewsletterShown()
      reads this
    {
      isMounted && config.newsletterSignup.Some? && config.newsletterSignup.value.enabled
    }

    /** The QR code itself: mounted, enabled and toggled on. */
    predicate QrCodeShown()
      reads this
    {
      isMounted && TruthyBool(config.enableQrCode) && showQrCode
    }
  }

  /** Two clicks on the QR button leave the page as it was. */
  method ToggleTwice(page: ProfilePage)
    modifies page
    ensures page.showQrCode == old(page.showQrCode)
    ensures page.QrCodeShown() == old(page.QrCodeShown())
    ensures page.QrButtonLabel() == old(page.QrButtonLabel())
  {
    page.ToggleQrCode();
    page.ToggleQrCode();
  }

  /** A fresh page for a table client, once mounted, has a URL ending in the
      client id and offers the QR button, with the code hidden. */
  method OpenProfile(clientId: string, origin: string) returns (page: ProfilePage?)
    ensures page == null <==> clientId !in Table
    ensures page != null ==> fresh(page) && page.config == Table[clientId]
    ensures page != null ==> page.profileUrl == ProfileUrl(origin, clientId)
    ensures page != null ==> page.QrButtonShown() && !page.QrCodeShown()
  {
    match GetClientConfig(clientId)
    case None =>
      page := null;
    case Some(c) =>
      TableKeysAreClientIds();
      page := new ProfilePage(c);
      page.Mount(origin);
  }
}

=== FILE: newsletter_signup.dfy ===
/**
 * The newsletter signup form: its email, status and message, the submit
 * handler's transitions, and what each state renders.
 */
module Newsletter {

  datatype Status = Idle | Loading | Success | Error

  const SuccessMessage := "You've been successfully subscribed!"
  const ErrorMessage := "Something went wrong. Please try again."
  const LoadingLabel := "Subscribing..."

  /** What can happen to the form: the user types, the user submits, or the
      awaited work of a submission settles (`failed` says whether the work
      inside the handler's `try` block threw). */
  datatype FormEvent = EmailInput(value: string) | SubmitForm | Settled(failed: bool)

  class SignupForm {
    var email: string
    var status: Status
    var message: string
    /** Every status the form has been set to, oldest first. */
    ghost var statusLog: seq<Status>

    ghost predicate Valid()
      reads this
    {
      |statusLog| > 0 && statusLog[0] == Idle && statusLog[|statusLog| - 1] == status
    }

    constructor ()
      ensures Valid()
      ensures email == "" && status == Idle && message == "" && statusLog == [Idle]
    {
      email := "";
      status := Idle;
      message := "";
      statusLog := [Idle];
    }

    method SetStatus(s: Status)
      requires Valid()
      modifies this
      ensures Valid()
      ensures status == s && statusLog == old(statusLog) + [s]
      ensures email == old(email) && message == old(message)
    {
      status := s;
      statusLog := statusLog + [s];
    }

    /** The input's change handler. */
    method ChangeEmail(value: string)
      requires Valid()
      modifies this
      ensures Valid()
      ensures email == value
      ensures status == old(status) && message == old(message) && statusLog == old(statusLog)
    {
      email := value;
    }

    /** `handleSubmit` up to its `await`: nothing for an empty email, otherwise
        the form goes to loading. */
    method BeginSubmit() returns (started: bool)
      requires Valid()
      modifies this
      ensures Valid()
      ensures started <==> old(email) != ""
      ensures !started ==>
        email == old(email) && status == old(status) && message == old(message) && statusLog == old(statusLog)
      ensures started ==>
        status == Loading && email == old(email) && message == old(message) && statusLog == old(statusLog) + [Loading]
    {
      if email == "" {
        return false;
      }
      SetStatus(Loading);
      return true;
    }

    /** `handleSubmit` after its `await`: success sets the message and clears
        the email; a throw in the `try` block sets the error message instead. */
    method Settle(failed: bool)
      requires Valid()
      modifies this
      ensures Valid()
      ensures !failed ==>
        status == Success && message == SuccessMessage && email == "" && statusLog == old(statusLog) + [Success]
      ensures failed ==>
        status == Error && message == ErrorMessage && email == old(email) && statusLog == old(statusLog) + [Error]
    {
      if failed {
        SetStatus(Error);
        message := ErrorMessage;
        return;
      }
      SetStatus(Success);
      message := SuccessMessage;
      email := "";
    }

    /** The whole of `handleSubmit` with the simulated delay taken out. */
    method Submit(failed: bool)
      requires Valid()
      modifies this
      ensures Valid()
      ensures old(email) == "" ==>
        email == old(email) && status == old(status) && message == old(message) && statusLog == old(statusLog)
      ensures old(email) != "" && !failed ==>
        status == Success && message == SuccessMessage && email == "" &&
        statusLog == old(statusLog) + [Loading, Success]
      ensures old(email) != "" && failed ==>
        status == Error && message == ErrorMessage && email == old(email) &&
        statusLog == old(statusLog) + [Loading, Error]
    {
      var started := BeginSubmit();
      if started {
        Settle(failed);
      }
    }

    /** Delivers an event. Typing and submitting reach the handlers only while
        the form is on screen, and submitting only while the button is enabled;
        a submission settles only while one is loading. So once subscribed
        nothing changes any more. */
    method Handle(ev: FormEvent)
      requires Valid()
      modifies this
      ensures Valid()
      ensures old(status) == Success ==>
        email == old(email) && status == old(status) && message == old(message) && statusLog == old(statusLog)
      ensures old(status) == Loading && ev.SubmitForm? ==>
        email == old(email) && status == old(status) && message == old(message) && statusLog == old(statusLog)
      ensures old(status) != Success && ev.EmailInput? ==>
        email == ev.value && status == old(status) && message == old(message) && statusLog == old(statusLog)
      ensures old(status) in {Idle, Error} && ev.SubmitForm? && old(email) == "" ==>
        email == old(email) && status == old(status) && message == old(message) && statusLog == old(statusLog)
      ensures old(status) in {Idle, Error} && ev.SubmitForm? && old(email) != "" ==>
        status == Loading && email == old(email) && message == old(message) && statusLog == old(statusLog) + [Loading]
      ensures old(status) == Loading && ev.Settled? ==>
        status == (if ev.failed then Error else Success) &&
        message == (if ev.failed then ErrorMessage else SuccessMessage) &&
        email == (if ev.failed then old(email) else "") &&
        statusLog == old(statusLog) + [status]
      ensures old(status) != Loading && ev.Settled? ==>
        email == old(email) && status == old(status) && message == old(message) && statusLog == old(statusLog)
    {
      match ev
      case EmailInput(value) =>
        if FormRendered() {
          ChangeEmail(value);
        }
      case SubmitForm =>
        if FormRendered() && !ButtonDisabled() {
          var _ := BeginSubmit();
        }
      case Settled(failed) =>
        if status == Loading {
          Settle(failed);
        }
    }

    /** The form is replaced by the success message once subscribed. */
    predicate FormRendered()
      reads this
    {
      status != Success
    }

    predicate ButtonDisabled()
      reads this
    {
      status == Loading
    }

    function ButtonLabel(buttonText: string): (text: string)
      reads this
      ensures status == Loading ==> text == LoadingLabel
      ensures status != Loading ==> text == buttonText
    {
      if status == Loading then LoadingLabel else buttonText
    }

    /** The error paragraph. */
    predicate ErrorShown()
      reads this
    {
      FormRendered() && status == Error
    }
  }

  /** A whole subscription from a fresh form: typing an address and submitting
      passes through loading, where a second submit is ignored, and ends
      subscribed, after which further events change nothing. */
  method SubscribeOnce(address: string, later: FormEvent) returns (f: SignupForm)
    requires address != ""
    ensures f.Valid()
    ensures f.statusLog == [Idle, Loading, Success]
    ensures f.status == Success && f.message == SuccessMessage && f.email == ""
    ensures !f.FormRendered()
  {
    f := new SignupForm();
    f.Handle(EmailInput(address));
    f.Handle(SubmitForm);
    assert f.ButtonDisabled();
    f.Handle(SubmitForm);
    f.Handle(Settled(false));
    f.Handle(later);
  }
}

=== FILE: svg_icon.dfy ===
/**
 * The colourisation of a fetched SVG text: every `fill="…"` and then every
 * `stroke="…"` attribute value is replaced by one colour, by two global
 * regular-expression replacements.
 */
module SvgIcon {
  import opened JsRuntime

  const DefaultColor := "currentColor"

  /** The SVG text as the replacement scans it: characters it copies, and
      matches of `name="[^"]*"`, each holding the value between the quotes. */
  datatype Piece = Char(c: char) | Match(value: string)

  /** The text a match starts with. */
  function Opener(name: string): string {
    name + "=\""
  }

  /** Whether a match of `name="[^"]*"` starts at the head of `s`: the opener,
      and a closing quote somewhere after it. */
  predicate MatchAt(s: string, name: string) {
    OccursAt(s, Opener(name), 0) && '"' in s[|Opener(name)|..]
  }

  /** The value of the match at the head of `s`: the text up to the first quote. */
  function MatchValue(s: string, name: string): (v: string)
    requires MatchAt(s, name)
    ensures '"' !in v
  {
    var rest := s[|Opener(name)|..];
    rest[..FirstIndexOf(rest, '"')]
  }

  /** What follows the closing quote of the match at the head of `s`. */
  function MatchRest(s: string, name: string): (t: string)
    requires MatchAt(s, name)
    ensures |t| < |s|
  {
    var rest := s[|Opener(name)|..];
    rest[FirstIndexOf(rest, '"') + 1..]
  }

  /** The match at the head of `s` and what follows it make up `s`. */
  lemma MatchSplit(s: string, name: string)
    requires MatchAt(s, name)
    ensures s == Opener(name) + MatchValue(s, name) + "\"" + MatchRest(s, name)
  {
    var op := Opener(name);
    var rest := s[|op|..];
    var j := FirstIndexOf(rest, '"');
    assert rest == rest[..j] + "\"" + rest[j + 1..];
    assert s == s[..|op|] + rest;
  }

  /** The pieces of `s` for the pattern `name="[^"]*"` under a global search:
      at each position a match is tried; after a match the search goes on past
      its closing quote, otherwise one character is copied. */
  function Pieces(s: string, name: string): seq<Piece>
    decreases |s|
  {
    if s == [] then []
    else if MatchAt(s, name) then [Match(MatchValue(s, name))] + Pieces(MatchRest(s, name), name)
    else [Char(s[0])] + Pieces(s[1..], name)
  }

  /** The text one piece stands for. */
  function PieceText(p: Piece, name: string): string {
    match p
    case Char(c) => [c]
    case Match(v) => Opener(name) + v + "\""
  }

  /** The text the pieces spell. */
  function Spell(pieces: seq<Piece>, name: string): string
    decreases |pieces|
  {
    if pieces == [] then "" else PieceText(pieces[0], name) + Spell(pieces[1..], name)
  }

  /** Every match takes the value `color`; the copied characters stay. */
  function Recolor(pieces: seq<Piece>, color: string): (r: seq<Piece>)
    ensures |r| == |pieces|
    ensures forall i :: 0 <= i < |r| ==> (r[i].Char? <==> pieces[i].Char?)
    ensures forall i :: 0 <= i < |r| && r[i].Char? ==> r[i] == pieces[i]
    ensures forall i :: 0 <= i < |r| && r[i].Match? ==> r[i].value == color
  {
    seq(|pieces|, i requires 0 <= i < |pieces| =>
      match pieces[i]
      case Char(c) => Char(c)
      case Match(_) => Match(color))
  }

  /** `s.replace(/name="[^"]*"/g, `name="${color}"`)`: scanning from the left,
      each match is replaced and the scan resumes after it; every other
      character is copied. */
  function ReplaceAttribute(s: string, name: string, color: string): string
    decreases |s|
  {
    if s == [] then ""
    else if MatchAt(s, name) then Opener(name) + color + "\"" + ReplaceAttribute(MatchRest(s, name), name, color)
    else [s[0]] + ReplaceAttribute(s[1..], name, color)
  }

  /** The colourisation: fill values first, then stroke values of that result. */
  function Colorize(svg: string, color: string): string {
    ReplaceAttribute(ReplaceAttribute(svg, "fill", color), "stroke", color)
  }

  /** Spelling the pieces gives the scanned text back: the scan loses nothing
      and keeps every character in its place. */
  lemma {:induction false} SpellPieces(s: string, name: string)
    ensures Spell(Pieces(s, name), name) == s
    decreases |s|
  {
    if s != [] {
      if MatchAt(s, name) {
        var tail := MatchRest(s, name);
        SpellCons(Match(MatchValue(s, name)), Pieces(tail, name), name);
        SpellPieces(tail, name);
        MatchSplit(s, name);
      } else {
        SpellCons(Char(s[0]), Pieces(s[1..], name), name);
        SpellPieces(s[1..], name);
        assert s == [s[0]] + s[1..];
      }
    }
  }

  lemma SpellCons(p: Piece, rest: seq<Piece>, name: string)
    ensures Spell([p] + rest, name) == PieceText(p, name) + Spell(rest, name)
  {
    assert ([p] + rest)[1..] == rest;
  }

  lemma RecolorCons(p: Piece, rest: seq<Piece>, color: string)
    ensures Recolor([p] + rest, color) == Recolor([p], color) + Recolor(rest, color)
  {
  }

  /** The replacement is the scan with every match recoloured, spelled out again. */
  lemma {:induction false} ReplaceIsRecolor(s: string, name: string, color: string)
    ensures ReplaceAttribute(s, name, color) == Spell(Recolor(Pieces(s, name), color), name)
    decreases |s|
  {
    if s != [] {
      if MatchAt(s, name) {
        var m := Match(MatchValue(s, name));
        var tail := Pieces(MatchRest(s, name), name);
        ReplaceIsRecolor(MatchRest(s, name), name, color);
        RecolorCons(m, tail, color);
        assert Recolor([m], color) == [Match(color)];
        SpellCons(Match(color), Recolor(tail, color), name);
      } else {
        var c := Char(s[0]);
        var tail := Pieces(s[1..], name);
        ReplaceIsRecolor(s[1..], name, color);
        RecolorCons(c, tail, color);
        assert Recolor([c], color) == [c];
        SpellCons(c, Recolor(tail, color), name);
      }
    }
  }

  /** No match among the pieces holds a quote. */
  predicate QuoteFreeMatches(ps: seq<Piece>) {
    forall i :: 0 <= i < |ps| && ps[i].Match? ==> '"' !in ps[i].value
  }

  lemma QuoteFreeCons(p: Piece, rest: seq<Piece>)
    requires p.Match? ==> '"' !in p.value
    requires QuoteFreeMatches(rest)
    ensures QuoteFreeMatches([p] + rest)
  {
    var ps := [p] + rest;
    forall i | 0 <= i < |ps| && ps[i].Match?
      ensures '"' !in ps[i].value
    {
      if i > 0 {
        assert ps[i] == rest[i - 1];
      }
    }
  }

  /** Matched values never hold a quote: a match ends at the first quote. */
  lemma {:induction false} MatchValuesHaveNoQuote(s: string, name: string)
    ensures QuoteFreeMatches(Pieces(s, name))
    decreases |s|
  {
    if s == [] {
    } else if MatchAt(s, name) {
      MatchValuesHaveNoQuote(MatchRest(s, name), name);
      QuoteFreeCons(Match(MatchValue(s, name)), Pieces(MatchRest(s, name), name));
    } else {
      MatchValuesHaveNoQuote(s[1..], name);
      QuoteFreeCons(Char(s[0]), Pieces(s[1..], name));
    }
  }

  /** Text where the opener never occurs has no match. */
  lemma {:induction false} NoOpenerNoMatch(s: string, name: string)
    requires !Contains(s, Opener(name))
    ensures forall i :: 0 <= i < |Pieces(s, name)| ==> Pieces(s, name)[i].Char?
    decreases |s|
  {
    if s != [] {
      assert s[0..] == s;
      ShiftNoOpener(s, name);
      NoOpenerNoMatch(s[1..], name);
    }
  }

  /** Recolouring pieces that are all copied characters changes nothing. */
  lemma {:induction false} RecolorCharsOnly(pieces: seq<Piece>, color: string)
    requires forall i :: 0 <= i < |pieces| ==> pieces[i].Char?
    ensures Recolor(pieces, color) == pieces
  {
  }

  /** A text in which the attribute's opener does not occur is returned unchanged. */
  lemma {:induction false} NoAttributeUnchanged(s: string, name: string, color: string)
    requires !Contains(s, Opener(name))
    ensures ReplaceAttribute(s, name, color) == s
  {
    NoOpenerNoMatch(s, name);
    RecolorCharsOnly(Pieces(s, name), color);
    SpellPieces(s, name);
    ReplaceIsRecolor(s, name, color);
  }

  /** Text with neither `fill="` nor `stroke="` comes out of the colourisation as it went in. */
  lemma {:induction false} PlainSvgUnchanged(svg: string, color: string)
    requires !Contains(svg, Opener("fill")) && !Contains(svg, Opener("stroke"))
    ensures Colorize(svg, color) == svg
  {
    NoAttributeUnchanged(svg, "fill", color);
    NoAttributeUnchanged(svg, "stroke", color);
  }

  /** The replacement keeps the scan's pieces: the same characters in the same
      places, and the same matches, each now holding `color`. */
  lemma {:induction false} ReplaceKeepsStructure(s: string, name: string, color: string)
    ensures var before := Pieces(s, name);
      var after := Recolor(before, color);
      && Spell(before, name) == s
      && ReplaceAttribute(s, name, color) == Spell(after, name)
      && |after| == |before|
      && (forall i :: 0 <= i < |after| && before[i].Char? ==> after[i] == before[i])
      && (forall i :: 0 <= i < |after| && before[i].Match? ==> after[i] == Match(color))
  {
    SpellPieces(s, name);
    ReplaceIsRecolor(s, name, color);
  }

  /** Where no match starts, the first character is copied. */
  lemma CopyHead(s: string, name: string, color: string)
    requires s != [] && !MatchAt(s, name)
    ensures ReplaceAttribute(s, name, color) == [s[0]] + ReplaceAttribute(s[1..], name, color)
  {
  }

  /** The attribute `name="v"` as it is written in the text. */
  function Attribute(name: string, v: string): string {
    Opener(name) + v + "\""
  }

  /** No opener starts within `pre`, even one running on into the `name=`
      that follows it. */
  predicate OpenerFree(pre: string, name: string) {
    !Contains(pre + name + "=", Opener(name))
  }

  /** A match at the head of the text: its value becomes the colour and the
      search goes on after the closing quote. */
  lemma ReplaceAtOpener(name: string, v: string, post: string, color: string)
    requires '"' !in v
    ensures ReplaceAttribute(Attribute(name, v) + post, name, color) ==
            Attribute(name, color) + ReplaceAttribute(post, name, color)
  {
    var op := Opener(name);
    var s := Attribute(name, v) + post;
    assert s == op + (v + "\"" + post);
    assert s[|op|..] == v + "\"" + post;
    assert (v + "\"" + post)[|v|] == '"';
    FirstIndexIsQuote(v, post);
    assert s[|op|..][|v| + 1..] == post;
    assert s[..|op|] == op;
    assert MatchAt(s, name);
    assert MatchRest(s, name) == post;
  }

  /** No match starts at the head of a non-empty opener-free prefix. */
  lemma NoMatchInPrefix(pre: string, name: string, after: string)
    requires pre != [] && OpenerFree(pre, name)
    ensures !MatchAt(pre + Opener(name) + after, name)
  {
    var op := Opener(name);
    var w := pre + name + "=";
    assert !OccursAt(w, op, 0);
    assert w[0..0 + |op|] == (pre + op + after)[..|op|];
  }

  /** Before the first match, the first character of the text is copied. */
  lemma StepBeforeMatch(pre: string, name: string, v: string, post: string, color: string)
    requires pre != [] && OpenerFree(pre, name)
    ensures ReplaceAttribute(pre + Attribute(name, v) + post, name, color) ==
            [pre[0]] + ReplaceAttribute(pre[1..] + Attribute(name, v) + post, name, color)
  {
    var after := v + "\"" + post;
    var s := pre + Attribute(name, v) + post;
    assert s == pre + Opener(name) + after;
    NoMatchInPrefix(pre, name, after);
    assert s[0] == pre[0] && s[1..] == pre[1..] + Attribute(name, v) + post;
    CopyHead(s, name, color);
  }

  /** Dropping the first character keeps a prefix opener-free. */
  lemma ShiftPrefix(pre: string, name: string)
    requires pre != [] && OpenerFree(pre, name)
    ensures OpenerFree(pre[1..], name)
  {
    var w := pre + name + "=";
    assert pre[1..] + name + "=" == w[1..];
    ShiftNoOpener(w, name);
  }

  /** One attribute replaced: the opener-free text before it is copied, the
      value becomes the colour, and the search goes on after the closing quote. */
  lemma {:induction false} ReplaceFirstMatch(pre: string, name: string, v: string, post: string, color: string)
    requires OpenerFree(pre, name) && '"' !in v
    ensures ReplaceAttribute(pre + Attribute(name, v) + post, name, color) ==
            pre + Attribute(name, color) + ReplaceAttribute(post, name, color)
    decreases |pre|
  {
    if pre == [] {
      ReplaceAtOpener(name, v, post, color);
      assert pre + Attribute(name, v) + post == Attribute(name, v) + post;
      assert pre + Attribute(name, color) == Attribute(name, color);
    } else {
      ShiftPrefix(pre, name);
      ReplaceFirstMatch(pre[1..], name, v, post, color);
      ConsPrefix(pre, name, v, post, color);
    }
  }

  /** The step of `ReplaceFirstMatch`: from its claim for the prefix without
      its first character to its claim for the whole prefix. */
  lemma ConsPrefix(pre: string, name: string, v: string, post: string, color: string)
    requires pre != [] && OpenerFree(pre, name)
    requires ReplaceAttribute(pre[1..] + Attribute(name, v) + post, name, color) ==
             pre[1..] + Attribute(name, color) + ReplaceAttribute(post, name, color)
    ensures ReplaceAttribute(pre + Attribute(name, v) + post, name, color) ==
            pre + Attribute(name, color) + ReplaceAttribute(post, name, color)
  {
    StepBeforeMatch(pre, name, v, post, color);
    Regroup(pre, Attribute(name, color), ReplaceAttribute(post, name, color));
  }

  lemma Regroup(p: string, b: string, r: string)
    requires p != []
    ensures [p[0]] + (p[1..] + b + r) == p + b + r
  {
    assert [p[0]] + p[1..] == p;
  }

  lemma {:induction false} FirstIndexIsQuote(v: string, post: string)
    requires '"' !in v
    ensures FirstIndexOf(v + "\"" + post, '"') == |v|
    decreases |v|
  {
    if v != [] {
      assert (v + "\"" + post)[1..] == v[1..] + "\"" + post;
      FirstIndexIsQuote(v[1..], post);
    }
  }

  /** Dropping the first character keeps the opener absent. */
  lemma ShiftNoOpener(s: string, name: string)
    requires |s| > 0 && !Contains(s, Opener(name))
    ensures !Contains(s[1..], Opener(name))
  {
    var op := Opener(name);
    forall i | 0 <= i <= |s[1..]|
      ensures !OccursAt(s[1..], op, i)
    {
      assert !OccursAt(s, op, i + 1);
      if i <= |s[1..]| - |op| {
        assert s[1..][i..i + |op|] == s[i + 1..i + 1 + |op|];
      }
    }
  }

  /** The colourised SVG content: the colour defaults to "currentColor". */
  function ColorizedSvg(svgText: string, color: Option<string>): string {
    Colorize(svgText, color.GetOr(DefaultColor))
  }

  /** A text with a single attribute of the name: only its value changes. The
      text before it holds no opener, even one running on into the attribute,
      and the text after it holds none either. */
  lemma ReplaceOnlyMatch(pre: string, name: string, v: string, post: string, color: string)
    requires OpenerFree(pre, name) && '"' !in v && !Contains(post, Opener(name))
    ensures ReplaceAttribute(pre + Attribute(name, v) + post, name, color) ==
            pre + Attribute(name, color) + post
  {
    ReplaceFirstMatch(pre, name, v, post, color);
    NoAttributeUnchanged(post, name, color);
  }

  /** The pass over the first of two attributes recolours it and keeps the
      second, when nothing else in the text opens an attribute of its name. */
  lemma PassOverFirst(pre: string, n1: string, v1: string, mid: string, n2: string, v2: string,
                      post: string, color: string)
    requires '"' !in v1 && OpenerFree(pre, n1)
    requires !Contains(mid + Attribute(n2, v2) + post, Opener(n1))
    ensures ReplaceAttribute(pre + Attribute(n1, v1) + mid + Attribute(n2, v2) + post, n1, color) ==
            pre + Attribute(n1, color) + mid + Attribute(n2, v2) + post
  {
    var tail := mid + Attribute(n2, v2) + post;
    assert pre + Attribute(n1, v1) + mid + Attribute(n2, v2) + post == pre + Attribute(n1, v1) + tail;
    ReplaceOnlyMatch(pre, n1, v1, tail, color);
    assert pre + Attribute(n1, color) + tail == pre + Attribute(n1, color) + mid + Attribute(n2, v2) + post;
  }

  /** The pass over the second of two attributes recolours it and keeps the
      first, when nothing else in the text opens an attribute of its name. */
  lemma PassOverSecond(pre: string, n1: string, v1: string, mid: string, n2: string, v2: string,
                       post: string, color: string)
    requires '"' !in v2 && OpenerFree(pre + Attribute(n1, v1) + mid, n2)
    requires !Contains(post, Opener(n2))
    ensures ReplaceAttribute(pre + Attribute(n1, v1) + mid + Attribute(n2, v2) + post, n2, color) ==
            pre + Attribute(n1, v1) + mid + Attribute(n2, color) + post
  {
    ReplaceOnlyMatch(pre + Attribute(n1, v1) + mid, n2, v2, post, color);
  }

  /** An element with one fill and one stroke attribute: the fill pass
      recolours the fill, then the stroke pass, reading that output, recolours
      the stroke, and the rest of the markup is kept; an absent colour is the
      current colour. No other `fill="` or `stroke="` opens anywhere in the
      text, and none opens in the fill pass's output either (which rules out a
      colour that itself holds `stroke="`). */
  lemma ColorizeFillAndStroke(pre: string, fillValue: string, mid: string, strokeValue: string,
                              post: string, color: Option<string>)
    requires '"' !in fillValue && '"' !in strokeValue
    requires OpenerFree(pre, "fill")
    requires !Contains(mid + Attribute("stroke", strokeValue) + post, Opener("fill"))
    requires OpenerFree(pre + Attribute("fill", color.GetOr(DefaultColor)) + mid, "stroke")
    requires !Contains(post, Opener("stroke"))
    ensures var c := color.GetOr(DefaultColor);
      ColorizedSvg(pre + Attribute("fill", fillValue) + mid + Attribute("stroke", strokeValue) + post, color) ==
      pre + Attribute("fill", c) + mid + Attribute("stroke", c) + post
  {
    var c := color.GetOr(DefaultColor);
    PassOverFirst(pre, "fill", fillValue, mid, "stroke", strokeValue, post, c);
    PassOverSecond(pre, "fill", c, mid, "stroke", strokeValue, post, c);
  }
}

=== FILE: theme_styles.dfy ===
/**
 * The theme resolver: from a theme name and an optional custom theme to the
 * bundle of class strings and inline style maps that every UI slot uses.
 */
module Theme {
  import opened JsRuntime
  import opened Config

  /** The CSS properties the inline styles set, named as the style objects'
      keys (`background`, `color`, `borderColor`, `boxShadow`, `borderWidth`,
      `backgroundImage`, `backgroundSize`, `backgroundRepeat`). */
  datatype Property =
    | Background | Color | BorderColor | BoxShadow | BorderWidth
    | BackgroundImage | BackgroundSize | BackgroundRepeat

  /** An inline style object: CSS property to value. A key whose value is
      `None` is present in the object with the value `undefined`. */
  type Style = map<Property, Option<string>>

  datatype IconStyle = IconStyle(color: string)

  /** The optional inline styles per slot. */
  datatype CustomStyles = CustomStyles(
    container: Option<Style>,
    link: Option<Style>,
    pinnedLink: Option<Style>,
    qrButton: Option<Style>,
    newsletterInput: Option<Style>,
    newsletterButton: Option<Style>,
    contactItem: Option<Style>,
    contactCard: Option<Style>,
    contactSection: Option<Style>,
    contactIcon: Option<IconStyle>)

  /** The resolved bundle: a class string per slot (the contact slots are
      optional in the type) and, for the custom theme only, inline styles. */
  datatype ThemeStyles = ThemeStyles(
    container: string,
    link: string,
    pinnedLink: string,
    qrButton: string,
    newsletterInput: string,
    newsletterButton: string,
    contactItem: Option<string>,
    contactCard: Option<string>,
    contactSection: Option<string>,
    customStyles: Option<CustomStyles>)

  const LightTheme := ThemeStyles(
    container := "bg-gradient-to-br from-white to-gray-50 text-gray-900",
    link := "bg-white hover:bg-gray-50 text-gray-900 border border-gray-200 shadow-md",
    pinnedLink := "bg-green-50 hover:bg-green-100 text-green-800 border border-green-200 shadow-md",
    qrButton := "bg-gray-100 text-gray-600 hover:bg-gray-200",
    newsletterInput := "bg-white border-gray-200 text-gray-800 placeholder-gray-400",
    newsletterButton := "bg-blue-600 hover:bg-blue-700 text-white",
    contactItem := Some("bg-white hover:bg-gray-50 text-gray-900 border-0 shadow-sm hover:shadow"),
    contactCard := Some("bg-white hover:bg-gray-50 text-gray-800 border border-gray-100 shadow-sm"),
    contactSection := Some("w-full"),
    customStyles := None)

  const DarkTheme := ThemeStyles(
    container := "bg-gradient-to-br from-gray-900 to-gray-800 text-white",
    link := "bg-gray-800 hover:bg-gray-700 text-white border border-gray-700 shadow-md",
    pinnedLink := "bg-blue-900 hover:bg-green-800 text-green-100 border border-green-800 shadow-md",
    qrButton := "bg-gray-800 text-gray-300 hover:bg-gray-700",
    newsletterInput := "bg-gray-800 border-gray-700 text-white placeholder-gray-400",
    newsletterButton := "bg-blue-600 hover:bg-blue-700 text-white",
    contactItem := Some("bg-gray-800 hover:bg-gray-750 text-white border-0 shadow-sm hover:shadow"),
    contactCard := Some("bg-gray-800 hover:bg-gray-750 text-gray-100 border border-gray-700 shadow-sm"),
    contactSection := Some("w-full"),
    customStyles := None)

  const GradientPrefix := "linear-gradient(to bottom right, "
  const GradientSeparator := ", "
  const PrimaryShadowOffset := "0 4px 6px "
  const ContactShadowOffset := "0 2px 4px "
  const CardBorderFallback := "rgba(255,255,255,0.2)"
  const PinnedBorderWidth := "2px"

  /** The CSS `linear-gradient(...)` image for a list of colour stops. */
  function GradientCss(stops: seq<string>): string {
    GradientPrefix + Join(stops, GradientSeparator) + ")"
  }

  /** The container background: a plain colour verbatim, a gradient as CSS. */
  function BackgroundCss(b: BackgroundSetting): string {
    match b
    case Solid(color) => color
    case Gradient(stops) => GradientCss(stops)
  }

  /** The stops written in a gradient string, read back; `None` when the string
      is not a gradient of this shape. */
  function GradientStops(css: string): Option<seq<string>> {
    if |css| > |GradientPrefix| && css[..|GradientPrefix|] == GradientPrefix && css[|css| - 1] == ')'
    then Some(SplitOn(css[|GradientPrefix|..|css| - 1], GradientSeparator))
    else None
  }

  /** A drop shadow for a truthy shadow colour; `undefined` otherwise. */
  function Shadow(offset: string, color: Option<string>): (r: Option<string>)
    ensures r.Some? <==> Truthy(color)
  {
    if Truthy(color) then Some(offset + color.value) else None
  }

  function CustomContainerStyle(ct: CustomTheme): Style {
    map[Background := Some(BackgroundCss(ct.background)), Color := Some(ct.text)]
  }

  function CustomLinkStyle(ct: CustomTheme): Style {
    map[
      Background := Some(ct.linkBackground),
      Color := Some(ct.linkText),
      BorderColor := ct.linkBorder,
      BoxShadow := Shadow(PrimaryShadowOffset, ct.linkShadow)]
  }

  function CustomPinnedLinkStyle(ct: CustomTheme): Style {
    map[
      Background := Some(ct.linkBackground),
      Color := Some(ct.linkText),
      BorderColor := ct.linkBorder,
      BoxShadow := Shadow(PrimaryShadowOffset, ct.linkShadow),
      BorderWidth := Some(PinnedBorderWidth)]
  }

  function CustomContactItemStyle(ct: CustomTheme): Style {
    map[
      Background := Some(ct.linkBackground),
      Color := Some(ct.linkText),
      BoxShadow := Shadow(ContactShadowOffset, ct.linkShadow)]
  }

  function CustomContactCardStyle(ct: CustomTheme): Style {
    map[
      Background := Some(ct.linkBackground),
      Color := Some(ct.linkText),
      BorderColor := Some(OrElse(ct.linkBorder, CardBorderFallback)),
      BoxShadow := Shadow(ContactShadowOffset, ct.linkShadow)]
  }

  /** The bundle synthesised from a custom theme. */
  function CustomBundle(ct: CustomTheme): ThemeStyles {
    ThemeStyles(
      container := "",
      link := "",
      pinnedLink := "",
      qrButton := "bg-opacity-20 bg-white text-white hover:bg-opacity-30",
      newsletterInput := "bg-white bg-opacity-10 border-white border-opacity-20 text-white placeholder-white placeholder-opacity-60",
      newsletterButton := "bg-white bg-opacity-20 hover:bg-opacity-30 text-white",
      contactItem := Some("border-0 shadow-sm hover:shadow"),
      contactCard := Some("border border-opacity-20 shadow-sm hover:bg-opacity-90"),
      contactSection := Some("w-full pt-5 mt-3"),
      customStyles := Some(CustomStyles(
        container := Some(CustomContainerStyle(ct)),
        link := Some(CustomLinkStyle(ct)),
        pinnedLink := Some(CustomPinnedLinkStyle(ct)),
        qrButton := None,
        newsletterInput := None,
        newsletterButton := None,
        contactItem := Some(CustomContactItemStyle(ct)),
        contactCard := Some(CustomContactCardStyle(ct)),
        contactSection := None,
        contactIcon := Some(IconStyle(ct.linkText)))))
  }

  /** `getThemeStyles(theme, customTheme)`: the custom bundle when the theme is
      exactly "custom" and a custom theme is given, the dark table when the theme
      is exactly "dark", the light table otherwise. */
  function GetThemeStyles(theme: Option<string>, customTheme: Option<CustomTheme>): (r: ThemeStyles)
    ensures r.contactItem.Some? && r.contactCard.Some? && r.contactSection.Some?
    ensures r.customStyles.Some? <==> theme == Some("custom") && customTheme.Some?
    ensures theme == Some("custom") && customTheme.Some? ==> r == CustomBundle(customTheme.value)
  {
    if theme == Some("custom") && customTheme.Some? then CustomBundle(customTheme.value)
    else if theme == Some("dark") then DarkTheme
    else LightTheme
  }

  /** "dark" gives the dark table whatever custom theme comes with it. */
  lemma DarkIgnoresCustomTheme(ct: Option<CustomTheme>)
    ensures GetThemeStyles(Some("dark"), ct) == DarkTheme
  {
  }

  /** Absent and unknown themes, "light", and "custom" without a custom theme
      all give the light table. */
  lemma FallbackIsLight(theme: Option<string>, ct: Option<CustomTheme>)
    requires theme != Some("dark")
    requires theme != Some("custom") || ct.None?
    ensures GetThemeStyles(theme, ct) == LightTheme
  {
  }

  /** The theme name is compared exactly: "Dark" is not "dark". */
  lemma ThemeNameIsCaseSensitive(ct: Option<CustomTheme>)
    ensures GetThemeStyles(Some("Dark"), ct) == LightTheme
    ensures GetThemeStyles(Some("CUSTOM"), ct) == LightTheme
  {
  }

  /** The client "ginger" asks for the custom theme but carries none, so its
      page is styled with the light table. */
  lemma GingerResolvesToLight()
    ensures Table["ginger"].ThemeText() == Some("custom")
    ensures GetThemeStyles(Table["ginger"].ThemeText(), Table["ginger"].customTheme) == LightTheme
  {
  }

  /** The gradient separator ", " never overlaps itself. */
  lemma SeparatorNonOverlapping()
    ensures NonOverlapping(GradientSeparator)
  {
    assert GradientSeparator[..1] == "," && GradientSeparator[1..] == " ";
  }

  /** A gradient string is read back to the same stops in the same order,
      when there is at least one stop and no stop holds ", " (a stop such as
      `rgba(0,0,0,0.5)` reads back whole). */
  lemma {:induction false} GradientRoundTrip(stops: seq<string>)
    requires |stops| >= 1
    requires forall i :: 0 <= i < |stops| ==> !Contains(stops[i], GradientSeparator)
    ensures GradientStops(GradientCss(stops)) == Some(stops)
  {
    var css := GradientCss(stops);
    var inner := Join(stops, GradientSeparator);
    assert css == GradientPrefix + inner + ")";
    assert css[..|GradientPrefix|] == GradientPrefix;
    assert css[|GradientPrefix|..|css| - 1] == inner;
    SeparatorNonOverlapping();
    SplitOnJoin(stops, GradientSeparator);
  }

  /** A stop without a space cannot hold ", ". */
  lemma NoSpaceNoSeparator(stop: string)
    requires ' ' !in stop
    ensures !Contains(stop, GradientSeparator)
  {
    forall i | 0 <= i <= |stop| - 2
      ensures !OccursAt(stop, GradientSeparator, i)
    {
      assert stop[i..i + 2][1] == stop[i + 1] != ' ';
    }
  }

  /** Stops written with commas but no spaces, such as `rgba(0,0,0,0.5)`,
      read back whole. */
  lemma RgbaStopsReadBack(stops: seq<string>)
    requires |stops| >= 1
    requires forall i :: 0 <= i < |stops| ==> ' ' !in stops[i]
    ensures GradientStops(GradientCss(stops)) == Some(stops)
  {
    forall i | 0 <= i < |stops|
      ensures !Contains(stops[i], GradientSeparator)
    {
      NoSpaceNoSeparator(stops[i]);
    }
    GradientRoundTrip(stops);
  }

  /** The custom bundle's container style: the background as CSS and the text colour. */
  lemma {:induction false} CustomContainer(ct: CustomTheme)
    ensures var cs := GetThemeStyles(Some("custom"), Some(ct)).customStyles;
      && cs.Some?
      && cs.value.container == Some(CustomContainerStyle(ct))
      && CustomContainerStyle(ct).Keys == {Background, Color}
      && CustomContainerStyle(ct)[Background] == Some(BackgroundCss(ct.background))
      && CustomContainerStyle(ct)[Color] == Some(ct.text)
  {
    assert GetThemeStyles(Some("custom"), Some(ct)) == CustomBundle(ct);
  }

  /** The container background: a colour is copied verbatim; a gradient reads
      back to its stops in order, when no stop holds ", ". */
  lemma {:induction false} CustomBackground(b: BackgroundSetting)
    requires b.Gradient? ==> |b.stops| >= 1
    requires b.Gradient? ==> forall i :: 0 <= i < |b.stops| ==> !Contains(b.stops[i], GradientSeparator)
    ensures b.Solid? ==> BackgroundCss(b) == b.color
    ensures b.Gradient? ==> GradientStops(BackgroundCss(b)) == Some(b.stops)
  {
    if b.Gradient? {
      GradientRoundTrip(b.stops);
    }
  }

  /** Gradient strings for two stops, and for the empty stop list, which is
      passed through unvalidated and reads back as one empty stop. */
  lemma GradientExamples()
    ensures GradientCss(["#fff", "#000"]) == "linear-gradient(to bottom right, #fff, #000)"
    ensures GradientCss([]) == "linear-gradient(to bottom right, )"
    ensures GradientStops(GradientCss([])) == Some([""])
  {
    var css := GradientCss([]);
    assert css[|GradientPrefix|..|css| - 1] == "";
  }

  /** The box shadow of the four link-like slots: the primary offset for links,
      the smaller one for contact slots, and a present-but-undefined value when
      the shadow colour is falsy. Stripping the offset gives the colour back. */
  lemma CustomShadows(ct: CustomTheme)
    ensures var cs := CustomBundle(ct).customStyles.value;
      && cs.link.value[BoxShadow] == Shadow(PrimaryShadowOffset, ct.linkShadow)
      && cs.pinnedLink.value[BoxShadow] == Shadow(PrimaryShadowOffset, ct.linkShadow)
      && cs.contactItem.value[BoxShadow] == Shadow(ContactShadowOffset, ct.linkShadow)
      && cs.contactCard.value[BoxShadow] == Shadow(ContactShadowOffset, ct.linkShadow)
    ensures forall offset: string :: Truthy(ct.linkShadow) ==>
      var s := Shadow(offset, ct.linkShadow).value;
      s[..|offset|] == offset && s[|offset|..] == ct.linkShadow.value
  {
  }

  /** The pinned-link style is the link style plus a 2px border width. */
  lemma PinnedIsLinkWithBorderWidth(ct: CustomTheme)
    ensures var cs := CustomBundle(ct).customStyles.value;
      BorderWidth !in cs.link.value &&
      cs.pinnedLink.value == cs.link.value[BorderWidth := Some(PinnedBorderWidth)]
  {
  }

  /** Border colours: the link keeps the configured border, possibly undefined;
      the contact card falls back to translucent white when it is falsy; the
      contact item has no border colour at all. */
  lemma CustomBorders(ct: CustomTheme)
    ensures var cs := CustomBundle(ct).customStyles.value;
      && cs.link.value[BorderColor] == ct.linkBorder
      && cs.contactCard.value[BorderColor] == Some(if Truthy(ct.linkBorder) then ct.linkBorder.value else CardBorderFallback)
      && BorderColor !in cs.contactItem.value
  {
  }

  /** What only the custom bundle has and does not have: inline styles with the
      link text as the contact-icon colour, empty class strings for container,
      link and pinned link, and no inline styles for the QR button, the
      newsletter slots and the contact section. */
  lemma CustomBundleShape(ct: CustomTheme)
    ensures var r := GetThemeStyles(Some("custom"), Some(ct));
      && r.customStyles.Some?
      && r.customStyles.value.contactIcon == Some(IconStyle(ct.linkText))
      && r.container == "" && r.link == "" && r.pinnedLink == ""
      && r.customStyles.value.qrButton.None?
      && r.customStyles.value.newsletterInput.None?
      && r.customStyles.value.newsletterButton.None?
      && r.customStyles.value.contactSection.None?
    ensures LightTheme.customStyles.None? && DarkTheme.customStyles.None?
  {
  }

  /** A plain-colour custom theme, end to end. */
  lemma {:induction false} CustomScenario()
    ensures var r := GetThemeStyles(Some("custom"), Some(CustomTheme(Solid("#123456"), "#fff", "#abcdef", "#000", None, None, None)));
      && r.customStyles.value.container.value[Background] == Some("#123456")
      && r.customStyles.value.container.value[Color] == Some("#fff")
      && r.customStyles.value.pinnedLink.value[BorderWidth] == Some("2px")
  {
    var ct := CustomTheme(Solid("#123456"), "#fff", "#abcdef", "#000", None, None, None);
    CustomContainer(ct);
    assert GetThemeStyles(Some("custom"), Some(ct)) == CustomBundle(ct);
    PinnedIsLinkWithBorderWidth(ct);
  }

}
